=== FILE: README.md ===
# jeni `BaseProvider` in Dafny

This project models `BaseProvider` from jeni ("dependency aggregation") and
proves properties of the model. `BaseProvider` does these things:

- **Registry.** It keeps a class-level registry of *annotations*. An
  annotation lists, for a callable, the *notes* naming its dependencies.
- **Lookup.** It looks annotations up along the class's method resolution
  order (MRO). When the MRO has none, it falls back to the classes registered
  with `implement`.
- **Resolving notes.** A note `'object:name'` is resolved by calling the
  accessor `get_object(name='name')` on the provider instance. `UNSET` from
  an accessor is fatal for a positional note. For a keyword note, the keyword
  is just left out.
- **Applying.** It applies a callable fully (`apply`) or partially
  (`partial`) with the resolved arguments.
- **Extending.** It extends other provider instances: their *methods* are
  reached through `__getattr__` when the provider lacks the attribute.
- **Closing.** It closes: first the methods named in `before_close`, then
  every `close_*` method, each name called once. `__exit__` calls `close`.

Modules:

- `Types` (types.dfy): options, results, callables and the exceptions.
  `UnsetError` is a `KeyError`, and so a `LookupError`.
- `Notes` (notes.dfy): `parse_note` and `format_accessor_name`.
- `Registry` (registry.dfy): `annotate`, `unannotate`, `implement` and
  `lookup`.
- `Extension` (extension.dfy): provider objects, `__getattr__`, `extend`
  and `unextend`.
- `Resolution` (resolution.dfy): `resolve_note`, `resolve_notes`, `apply`
  and `partial`.
- `Closing` (closing.dfy): `is_close_method`, `close` and `__exit__`.

How Python is modelled:

- **Python's reflection** becomes data.
  - A class is an id. The MRO of each class is supplied as a function
    `mro`.
  - A provider instance is an object in a heap. It holds its class, its own
    attributes and its `extends` list.
  - An attribute is known by its identity and by whether it is a method or
    function.
- **User code becomes parameters.**
  - What an accessor returns (a value, `UNSET`, or an exception) is a
    function `call` of the context.
  - Whether a close method raises is a function `run`.
  - `dir(self)` is a list supplied by the caller.
- **Exceptions** are the `Err` side of a `Result`.
- **Recursion limit.** Every nested `getattr` through an extension and
  every nested `lookup` through an implemented class uses up one level of
  Python's recursion. A cyclic `extends` or `implements` list recurses until
  Python raises RecursionError. The model gives these calls a `depth: nat`
  budget, one unit per nesting level, that ends in the error `TooDeep`. The
  budget bounds nesting in general, not only cycles: an acyclic chain deeper
  than the budget also ends in `TooDeep`.
- **Provider classes.** The registry records which classes derive from
  `BaseProvider`. Only those have `lookup`, so an implemented class that is
  not a provider makes `lookup` fail with AttributeError.

The test file next to jeni.py, test_jeni.py, exercises `jeni.Injector` and
`jeni.Provider`. Those are a later API, which this version of jeni.py does
not define. The model follows jeni.py itself:

- `partial` resolves every note at once, when the partial object is built.
- `annotate` silently overwrites an existing entry.
- `close` calls every `close_*` method of the provider.

Two edge cases of the code are kept:

- **Newline in the qualifier.** In the note regex `([^:]*):?(.*)` the `.`
  does not match a newline, so the qualifier stops at the first newline.
- **Missing basename.** `'get_{}'.format(None)` is `get_None`, so the note
  `':b'` calls `get_None(name='b')`.

Accessors and close methods are user code. The model treats them as pure
functions of the attribute fetched and the note's name:

- They cannot change a provider's attributes, its `extends` list or the
  class registry.
- A note listed twice resolves to the same value both times. Python calls
  the accessor twice, and the two calls may differ.

## Model

| member | source | states |
|---|---|---|
| Notes.ParseNote | jeni.py:218-221 | The basename is everything before the first colon and the qualifier is what follows it, up to the first newline. Empty parts become `None`. A parsed basename never contains a colon and a parsed qualifier never contains a newline. |
| Notes.ParseFormat | jeni.py:44 | Parsing `base[:name]` gives back the basename and qualifier for every non-empty colon-free basename and non-empty newline-free qualifier (the round trip). |
| Notes.FormatParse | jeni.py:44 | Formatting the parsed note gives the note back exactly when the note is canonical. A note is canonical when it has no colon, or when the text after its first colon is non-empty and holds no newline. The text before the colon may be empty. |
| Notes.FormatParseExamples | jeni.py:44 | `':b'` and the empty note come back unchanged, though they parse to a missing basename. |
| Notes.FormatParseLosses | jeni.py:44 | `'a:'` loses its trailing colon. `'a:b\nc'` loses the qualifier's text from the newline on. |
| Notes.ParseNoteExamples | jeni.py:218-221 | `'a'`, `'a:'`, `':b'`, `'a:b:c'` and `'a:b\nc'` parse as the regex does. The qualifier keeps later colons and stops at a newline. |
| Notes.AccessorName | jeni.py:42 | The accessor name is the prefix `get_` followed by the basename's text. `None` renders as "None". |
| Notes.AccessorNameInjective | jeni.py:223-225 | Distinct basenames name distinct accessors. |
| Notes.MissingBaseNamesGetNone | jeni.py:211-212 | A note with no basename is served by the accessor `get_None`, the same accessor the basename "None" names. |
| Registry.Annotate | jeni.py:100-106 | After annotating, `fn`'s entry on the class is the new annotation. Every other entry of every class is unchanged, and so is the `implements` registry. |
| Registry.Unannotate | jeni.py:108-111 | It succeeds exactly when the class has a table holding `fn`, and otherwise raises KeyError. It removes only that entry. |
| Registry.Implement | jeni.py:167-172 | The class's implements list becomes the old list followed by the new classes. Other classes' lists and all annotations are unchanged. |
| Registry.ClassHit | jeni.py:184-190 | A class yields its own entry for `fn`. Failing that, and only for a bound method, it yields the entry of the method's `__func__`. |
| Registry.MroLookup | jeni.py:177-190 | The walk returns the first class in MRO order that yields an entry. It returns nothing exactly when no class in the MRO yields one. |
| Registry.Lookup | jeni.py:174-196 | A found annotation was registered on some class. The only failures are LookupError for `fn`, the recursion limit, and AttributeError for `lookup` when an implemented class is not a provider. |
| Registry.Fallback | jeni.py:191-196 | The same two facts hold for the loop over implemented classes. A class that is not a provider ends the loop with AttributeError, which is not a LookupError. |
| Registry.AnnotateThenLookup | jeni.py:100-106 | After `cls.annotate(...)(fn)`, `cls.lookup(fn)` returns exactly that annotation (round trip). |
| Registry.ReannotateOverwrites | jeni.py:104 | Annotating `fn` twice on one class leaves the registry as if only the second annotation had been made. |
| Registry.UnannotateUndoesAnnotate | jeni.py:108-111 | Unannotating a freshly annotated callable restores the registry exactly. |
| Registry.BoundMethodUsesFunc | jeni.py:187-190 | A bound method with no entry of its own finds the annotation of its `__func__`. |
| Registry.MroLookupFrame | jeni.py:177-190 | An annotation stored on a class outside the walked list does not change the walk. |
| Registry.LookupFrame | jeni.py:174-196 | An annotation on a class that is not reachable through the MRO or `implements` does not change `lookup`. So a base class never sees its subclasses' annotations. |
| Registry.FallbackFrame | jeni.py:191-196 | The same frame property holds for the implements loop. |
| Registry.SubclassShadows | jeni.py:177-186 | When two distinct classes both annotate `fn`, each one's lookup returns its own annotation. So a subclass's annotation shadows its base's for the subclass, and the base keeps its own. |
| Registry.FallbackFirstSuccess | jeni.py:191-196 | The fallback returns the answer of the first implemented class that does not raise LookupError. That answer may be the AttributeError of a class that is not a provider. When all of them raise LookupError, the fallback raises LookupError. |
| Registry.ImplementThenLookup | jeni.py:167-196 | A class whose MRO has no entry for `fn`, and which implements exactly one class, answers `lookup` exactly as that class does. |
| Extension.GetAttr | jeni.py:256-275 | An own attribute always wins. Without one, only a method can come from an extension, and the name `extends` never falls back. With no extensions, or for `extends`, the result is AttributeError. The only failures are AttributeError and the recursion limit. |
| Extension.FromExtensions | jeni.py:267-275 | Whatever the extension loop returns is a method or function, and its only failures are AttributeError and the recursion limit. |
| Extension.FromExtensionsOrder | jeni.py:267-275 | The first extension that offers a method wins. Extensions that raise AttributeError or offer a non-method are passed over. When all of them decline, the loop ends in AttributeError. |
| Extension.AttributeFallback | jeni.py:256-275 | The same first-method-wins order holds for `getattr` on a provider that lacks the attribute. |
| Extension.Extend | jeni.py:231-247 | The extension list becomes the old list followed by the new providers, in order. The provider's attributes and every other object are unchanged. |
| Extension.IndexOf | jeni.py:253 | The index returned is that of the first occurrence of the element. |
| Extension.RemoveFirst | jeni.py:253 | `list.remove` drops exactly one occurrence, the first, and keeps the order of the rest. |
| Extension.RemoveFirstSubsequence | jeni.py:253 | `list.remove` keeps the remaining elements in their order. |
| Extension.KeepMultiset | jeni.py:252-253 | The walk drops exactly the owed copies the list can pay: what is left is the multiset difference. |
| Extension.KeepRemoveFirst | jeni.py:253 | One `list.remove` of `x` followed by the walk is the walk that also owes `x`, because `remove` drops the earliest copy. |
| Extension.RemoveEach | jeni.py:252-253 | The removal loop succeeds exactly when the providers, counted with multiplicity, are all in the list. Then the remaining list is the multiset difference. Otherwise it fails at the first position whose provider is no longer in the list, and the removals before that position stay made. Either way, the remaining list keeps the original order. |
| Extension.RemoveEachKeeps | jeni.py:252-253 | The loop removes the earliest copies. On success the list left is the walk `Keep` owing every provider. After a failure at position `k`, it is the walk owing the providers before `k`. |
| Extension.ShortfallIsFirst | jeni.py:252-253 | `Shortfall` is the first position whose provider is no longer in the list once the earlier ones are removed. It equals the number of providers exactly when all of them, counted with multiplicity, are in the list. |
| Extension.FirstShortfallUnique | jeni.py:252-253 | Only one position has that property, so the failing position is determined by the list and the providers. |
| Extension.RemoveEachShortfall | jeni.py:252-253 | The loop fails exactly when `Shortfall` falls short of the number of providers, and then at position `Shortfall`. |
| Extension.Unextend | jeni.py:249-254 | ValueError is raised exactly when some provider, counted with multiplicity, is not in the extension list. It names the provider at position `Shortfall`, the first one missing by the time its turn comes, and the earlier removals stay made. Otherwise one occurrence of each is removed. The remaining list keeps its order, and other objects are unchanged. |
| Extension.UnextendKeeps | jeni.py:249-254 | `unextend` removes the earliest copies. On success the new list is the walk `Keep` owing every provider. After a ValueError it is the walk owing the providers before position `Shortfall`. |
| Extension.ExtendThenUnextend | jeni.py:245-254 | Unextending providers that were just extended, and were not extended before, restores the list exactly (round trip). |
| Resolution.CallAccessor | jeni.py:213-216 | Calling the accessor can only fail with AttributeError for that accessor's name, the recursion limit, or what the accessor raised. |
| Resolution.ResolveNote | jeni.py:209-216 | Resolving a note can only fail with AttributeError for `get_<basename>`, the recursion limit, or what the accessor raised. `UNSET` is returned, never raised. |
| Resolution.AccessorCallShape | jeni.py:209-216 | The note `'b'` calls `get_b()` with no argument. The note `'b:q'` calls `get_b(name='q')`. |
| Resolution.ResolveAll | jeni.py:200 | Positional resolution yields one result per note, in order. A failure is the exception of the first note that raises. |
| Resolution.ResolveKeywords | jeni.py:201 | The keys are exactly the keyword names, and each holds the resolution of the last note given for that key. A failure is the exception of the first note, in dictionary order, that raises. |
| Resolution.FirstUnset | jeni.py:202-203 | The index returned is that of the first `UNSET` among the positional results. |
| Resolution.DropUnset | jeni.py:206 | A keyword is kept exactly when its resolution is not `UNSET`, with its value. |
| Resolution.ResolveNotes | jeni.py:198-207 | On success, the positional arguments are the notes' values in order. A keyword is passed exactly when its last note resolved to a value other than `UNSET`. A failure is either a note's own exception or UnsetError for a positional note that resolved to `UNSET`. The positional notes' first exception wins. Next comes the first exception of the keyword notes, and only then UnsetError. |
| Resolution.UnsetPositionalIsFatal | jeni.py:202-205 | When every note resolves, the first positional `UNSET` raises UnsetError naming that note. |
| Resolution.UnsetKeywordIsDropped | jeni.py:206-207 | When every note resolves and no positional note is `UNSET`, resolution succeeds whatever the keyword notes returned. |
| Resolution.Prepare | jeni.py:115-116 | A LookupError from `lookup` comes before any accessor is called. A keyword note named `self` is a TypeError before any note is resolved. Otherwise the result is that of `resolve_notes`. On success, the positional arguments are the notes' values in order. A keyword is passed exactly when its last note resolved to a value rather than `UNSET`, and then with that value. |
| Resolution.Apply | jeni.py:113-117 | `apply` calls `fn` exactly when lookup and resolution succeed. The positional arguments are the notes' values in order. The keyword arguments are exactly the keyword notes that did not resolve to `UNSET`, with their values, as the `annotate` docstring promises. A lookup failure is its error, and so is the TypeError for a keyword note named `self`. Otherwise a failure is the exception `resolve_notes` raises. |
| Resolution.Partial | jeni.py:119-123 | `partial` binds `fn` exactly when lookup and resolution succeed. It binds the same positional and keyword arguments `apply` passes, and fails with the same lookup and TypeError errors. Otherwise a failure is the exception `resolve_notes` raises. |
| Resolution.CallPartial | jeni.py:123 | Calling a partial object passes the bound positional arguments first, then the new ones. The keywords are the union of the two sets, and call keywords override bound ones. |
| Resolution.CallPartialNothing | jeni.py:123 | Calling a partial object with no further arguments passes exactly the bound ones. |
| Resolution.PartialThenCallIsApply | jeni.py:113-123 | Calling the result of `partial` with nothing more is the call `apply` makes, and the two fail alike. |
| Closing.IsCloseMethod | jeni.py:227-229 | A name is a close method exactly when "close_" is a prefix of it, which is what a search for the anchored pattern `^close_.*` finds. |
| Closing.CloseMethodNames | jeni.py:43 | The pattern's anchor and its `.*` accept any suffix after `close_`. The bare word `close` and a `close_` that does not start the name are rejected. |
| Closing.Dedup | jeni.py:151-157 | The set of names called keeps each name once and covers every name listed. |
| Closing.CloseNames | jeni.py:158-162 | The scanned names are exactly the close methods of `dir`. |
| Closing.RunAllPrefix | jeni.py:151-165 | The names called are a prefix of the names to call, in the same order. |
| Closing.RunAllClean | jeni.py:151-165 | A `close` ends without an exception exactly when it called every name and every call completed. |
| Closing.RunAllStops | jeni.py:151-165 | The calls stop at the first exception. Either the fetch of the next name failed, and that name is not counted as called; or the last name called raised. Every earlier call completed. |
| Closing.RunAllAppend | jeni.py:151-165 | Running a list whose first names all complete, and then the rest, is running the whole list. |
| Closing.StopAt | jeni.py:155-156 | After a clean prefix of the close order, a name whose fetch or call raises ends `close` there, and a name that completes extends the clean prefix. |
| Closing.Visit | jeni.py:155-157 | Fetching and calling the next name in the close order either ends `close` with its final outcome or adds the name to those called. |
| Closing.BeforeTurn | jeni.py:152-157 | One turn of the `before_close` loop skips a name already called. Otherwise it ends `close` with its final outcome, or the names called become the deduplicated list one name further. |
| Closing.CallBefore | jeni.py:151-157 | The `before_close` loop either ends `close` with its final outcome, or calls every listed name once, in list order, all completing. |
| Closing.DirTurn | jeni.py:158-165 | One turn of the `dir` loop skips a name already called or not a close method. Otherwise it ends `close` with its final outcome, or extends the names called. |
| Closing.ScanDir | jeni.py:158-165 | After a clean `before_close` loop, the `dir` loop yields exactly the outcome of handling the full close order. |
| Closing.Close | jeni.py:125-165 | The loops with their `called` set do exactly what the functional description says: handle the deduplicated list of `before_close` followed by the close methods of `dir`, stopping at the first exception. |
| Closing.CloseCallsEachOnce | jeni.py:139 | No name is called twice in one `close`. Duplicates are removed by name, so two names bound to the same method still call it twice. |
| Closing.CloseOrderShape | jeni.py:136-139 | `before_close` names come first, each once, in list order. Only close methods of `dir` not listed in `before_close` follow. Every listed name and every close method is in the order. |
| Closing.ScanCallsOwnMethods | jeni.py:141-144 | Close methods found by the scan are the provider's own attributes, never an extension's. |
| Closing.Exit | jeni.py:280-281 | `__exit__` runs `close` and never suppresses the exception of the `with` block. |

## Left out

- **Python reflection** is represented abstractly.
  - The MRO is a caller-supplied function.
  - `dir(self)` is a caller-supplied list. Its alphabetical order and its
    limitation to the provider's own attributes are not derived from the
    heap. Closing.ScanCallsOwnMethods takes the latter as a precondition.
  - `hasattr(other_class, 'class_annotation')` is reflected only by mixins
    never appearing in the registry.
- **Overriding is not modelled.** A subclass overriding
  `accessor_pattern`, `re_close_method`, `re_note`, `class_annotation`,
  `resolve_note` or `is_close_method` is not modelled; the defaults are
  fixed. The resolution loops are, however, stated for any `resolve_note`.
- **Notes that are not strings.** `re.match` would raise TypeError for
  them.
- **User code.**
  - Exception messages (`repr(fn)` and the UnsetError text) are not kept.
  - The return values of applied callables and close methods are not kept.
  - Accessor values are opaque numbers.
- **Side effects of user code.** Accessors and close methods cannot
  mutate the provider, its extensions or the registry in the model, and
  repeated calls give the same result. Python allows both. Stateful user
  code is not modelled.
- **`__enter__`** returns `self` and has no property to state.
- **Properties and descriptors.** The docstring of `extend` says they "test
  as methods". An attribute is simply flagged as a method or not, so this
  is not modelled separately.
- **Keyword notes** are a list of pairs in dictionary insertion order. A
  Python dictionary cannot hold a key twice. The model allows repeated keys
  and proves last-one-wins behaviour.
- **The recursion limit.** Python's limit is modelled by the `depth`
  budget, one unit per nested `getattr` or `lookup`. Its exact interpreter
  value, and the frames other calls use up, are not modelled. A chain
  deeper than the budget ends in `TooDeep` even when it is acyclic and
  Python would have answered.
- Registry.Annotate: an annotation whose keyword notes use the name `cls`
  is stored like any other. Python's `annotate` rejects it with TypeError,
  because `cls` is its own first parameter. The registry operations do not
  return errors.
- Extension.GetAttr: the `extends` list is kept in its own field, and
  fetching the name `extends` gives AttributeError even after `extend` has
  set it. Python returns the list. No modelled operation fetches that name
  except a `before_close` entry `extends`, and Python would then fail
  calling a list.
- **The later `Injector` API.** test_jeni.py exercises the `Injector` and
  `Provider` classes of a later jeni. This version of jeni.py does not
  define them, so they are not part of this model.

=== FILE: closing.dfy ===
/**
 The close protocol of `BaseProvider`: `close`, `is_close_method` and
 `__exit__`.

 `close` first calls the methods named in `before_close`, in list order, and
 then every name of `dir(self)` that `is_close_method` accepts, in `dir`
 order, never calling a name twice. Each name is fetched with `getattr`, so a
 name missing from the provider and its extensions raises AttributeError,
 and a close method may itself raise; either stops `close` there. What a
 close method does is user code: `run` says whether calling an attribute
 raises.
 */
module Closing {
  import opened Types
  import opened Extension

  /** `is_close_method`: the pattern `^close_.*` is found in the name. The
      anchor ties the match to the start and `.*` accepts any rest, so the
      name is a close method exactly when "close_" is a prefix of it. */
  function IsCloseMethod(name: string): (b: bool)
    ensures b <==> "close_" <= name
    ensures b ==> name == "close_" + name[6..]
  {
    |name| >= 6 && name[..6] == "close_"
  }

  /** Any suffix after "close_" is accepted, the bare word and a "close_"
      that does not start the name are not. */
  lemma CloseMethodNames(suffix: string)
    ensures IsCloseMethod("close_" + suffix)
    ensures !IsCloseMethod("close") && !IsCloseMethod("x_close_")
  {
    assert "close_" <= "close_" + suffix;
    assert !("close_" <= "x_close_") by {
      assert "x_close_"[0] == 'x';
    }
  }

  /** The first occurrence of every element, in order. */
  function Dedup(s: seq<string>): (r: seq<string>)
    ensures NoDup(r)
    ensures forall x :: x in r <==> x in s
  {
    if |s| == 0 then []
    else
      var d := Dedup(s[..|s| - 1]);
      var x := s[|s| - 1];
      assert forall y :: y in s <==> y in s[..|s| - 1] || y == x;
      if x in d then d else d + [x]
  }

  /** The names of `dir` that `is_close_method` accepts, in `dir` order. */
  function CloseNames(dir: seq<string>): (r: seq<string>)
    ensures forall x :: x in r <==> x in dir && IsCloseMethod(x)
  {
    if |dir| == 0 then []
    else
      var rest := CloseNames(dir[..|dir| - 1]);
      var x := dir[|dir| - 1];
      assert forall y :: y in dir <==> y in dir[..|dir| - 1] || y == x;
      if IsCloseMethod(x) then rest + [x] else rest
  }

  /** The names `close` calls when nothing raises, in call order. */
  function CloseOrder(before: seq<string>, dir: seq<string>): seq<string>
  {
    Dedup(before + CloseNames(dir))
  }

  /** What happens to one name: its method is fetched and called without
      incident, the fetch raises AttributeError (or exhausts the recursion
      limit), or the method itself raises. */
  datatype Step = Completed | NotFound(error: Error) | Raising(code: nat)

  /** One name handled by `close`: fetch the attribute and call it. */
  function CloseStep(h: Heap, self: Pid, depth: nat, run: Attr -> Option<nat>): string -> Step
    requires Closed(h) && self in h
  {
    (name: string) =>
      match GetAttr(h, self, name, depth)
      case Err(e) => NotFound(e)
      case Ok(a) =>
        match run(a)
        case Some(c) => Raising(c)
        case None => Completed
  }

  /** The names whose methods were called (the last one may have raised) and
      the exception that ended `close`, if any. */
  datatype Trace = Trace(called: seq<string>, error: Option<Error>)

  /** Handle each name in turn, stopping at the first exception. */
  function RunAll(step: string -> Step, names: seq<string>): (t: Trace)
    ensures |t.called| <= |names|
  {
    if |names| == 0 then Trace([], None)
    else
      match step(names[0])
      case NotFound(e) => Trace([], Some(e))
      case Raising(c) => Trace([names[0]], Some(Raised(c)))
      case Completed =>
        var rest := RunAll(step, names[1..]);
        assert names == [names[0]] + names[1..];
        Trace([names[0]] + rest.called, rest.error)
  }

  /** The names called are a prefix of the names to call. */
  lemma {:induction false} RunAllPrefix(step: string -> Step, names: seq<string>)
    ensures RunAll(step, names).called <= names
  {
    if |names| > 0 && step(names[0]).Completed? {
      var rest := names[1..];
      RunAllPrefix(step, rest);
      RunAllCons(step, names[0], rest, RunAll(step, rest).called, RunAll(step, rest).error);
      assert names == [names[0]] + rest;
    }
  }

  /** `close` ends without an exception exactly when it called every name
      and every call completed. */
  lemma {:induction false} RunAllClean(step: string -> Step, names: seq<string>)
    ensures RunAll(step, names).error.None? <==>
              RunAll(step, names).called == names && forall k :: 0 <= k < |names| ==> step(names[k]).Completed?
  {
    if |names| > 0 && step(names[0]).Completed? {
      var rest := names[1..];
      RunAllClean(step, rest);
      RunAllCons(step, names[0], rest, RunAll(step, rest).called, RunAll(step, rest).error);
      assert names == [names[0]] + rest;
      assert forall k :: 1 <= k < |names| ==> names[k] == rest[k - 1];
    }
  }

  /** Where `close` stops: either the fetch of the name after the completed
      calls failed, and that name is not counted as called; or the last name
      called raised. Every earlier name completed. */
  lemma {:induction false} RunAllStops(step: string -> Step, names: seq<string>)
    ensures var t := RunAll(step, names);
            t.error.Some? ==>
              (|t.called| < |names| && step(names[|t.called|]).NotFound? &&
               t.error == Some(step(names[|t.called|]).error) &&
               forall k :: 0 <= k < |t.called| ==> step(names[k]).Completed?) ||
              (0 < |t.called| && step(names[|t.called| - 1]).Raising? &&
               t.error == Some(Raised(step(names[|t.called| - 1]).code)) &&
               forall k :: 0 <= k < |t.called| - 1 ==> step(names[k]).Completed?)
  {
    if |names| > 0 && step(names[0]).Completed? {
      RunAllStops(step, names[1..]);
      var rest := RunAll(step, names[1..]);
      assert RunAll(step, names) == Trace([names[0]] + rest.called, rest.error);
      assert forall k :: 1 <= k < |names| ==> names[k] == names[1..][k - 1];
    }
  }

  /** Running a prefix that completes and then the rest is running the whole. */
  lemma {:induction false} RunAllAppend(step: string -> Step, a: seq<string>, b: seq<string>)
    requires forall k :: 0 <= k < |a| ==> step(a[k]).Completed?
    ensures RunAll(step, a + b) == Trace(a + RunAll(step, b).called, RunAll(step, b).error)
  {
    if |a| == 0 {
      assert a + b == b;
    } else {
      var x, rest, t := a[0], a[1..], RunAll(step, b);
      assert forall k :: 0 <= k < |rest| ==> rest[k] == a[k + 1];
      RunAllAppend(step, rest, b);
      RunAllCons(step, x, rest + b, rest + t.called, t.error);
      assert a + b == [x] + (rest + b);
      assert a + t.called == [x] + (rest + t.called);
    }
  }

  /** A name that completes is called, and the run goes on with the rest. */
  lemma RunAllCons(step: string -> Step, x: string, rest: seq<string>, called: seq<string>, error: Option<Error>)
    requires step(x).Completed? && RunAll(step, rest) == Trace(called, error)
    ensures RunAll(step, [x] + rest) == Trace([x] + called, error)
  {
    assert ([x] + rest)[0] == x && ([x] + rest)[1..] == rest;
  }

  /** Deduplicating a longer list extends the deduplicated prefix. */
  lemma {:induction false} DedupPrefix(a: seq<string>, b: seq<string>)
    ensures Dedup(a) <= Dedup(a + b)
    decreases |b|
  {
    if |b| == 0 {
      assert a + b == a;
    } else {
      var b' := b[..|b| - 1];
      DedupPrefix(a, b');
      assert (a + b)[..|a + b| - 1] == a + b';
      var d := Dedup(a + b');
      assert d <= Dedup(a + b);
      assert Dedup(a) == d[..|Dedup(a)|];
      assert Dedup(a) == Dedup(a + b)[..|Dedup(a)|];
    }
  }

  /** What deduplicating `a + b` adds after `Dedup(a)` comes from `b` and is
      not in `a`. */
  lemma {:induction false} DedupTail(a: seq<string>, b: seq<string>)
    ensures |Dedup(a)| <= |Dedup(a + b)|
    ensures forall k :: |Dedup(a)| <= k < |Dedup(a + b)| ==> Dedup(a + b)[k] in b && Dedup(a + b)[k] !in a
    decreases |b|
  {
    DedupPrefix(a, b);
    if |b| == 0 {
      assert a + b == a;
    } else {
      var b' := b[..|b| - 1];
      var x := b[|b| - 1];
      DedupTail(a, b');
      DedupPrefix(a, b');
      assert (a + b)[..|a + b| - 1] == a + b';
      assert (a + b)[|a + b| - 1] == x;
      var d := Dedup(a + b');
      var r := Dedup(a + b);
      assert r == d || r == d + [x];
      assert x in b;
      assert forall y :: y in b' ==> y in b;
      forall k | |Dedup(a)| <= k < |r|
        ensures r[k] in b && r[k] !in a
      {
        if k < |d| {
          assert r[k] == d[k];
        } else {
          assert r == d + [x] && r[k] == x;
          assert x !in d;
          assert x !in a + b';
        }
      }
    }
  }

  lemma {:induction false} CloseNamesAppend(a: seq<string>, b: seq<string>)
    ensures CloseNames(a + b) == CloseNames(a) + CloseNames(b)
    decreases |b|
  {
    if |b| > 0 {
      var b' := b[..|b| - 1];
      CloseNamesAppend(a, b');
      assert (a + b)[..|a + b| - 1] == a + b';
    } else {
      assert a + b == a;
    }
  }

  /** A clean prefix `p` of the full call order followed by the name `x`:
      when `x` fails, `close` ends there. */
  lemma StopAt(step: string -> Step, p: seq<string>, x: string, order: seq<string>)
    requires p + [x] <= order
    requires RunAll(step, p) == Trace(p, None)
    ensures step(x).NotFound? ==> RunAll(step, order) == Trace(p, Some(step(x).error))
    ensures step(x).Raising? ==> RunAll(step, order) == Trace(p + [x], Some(Raised(step(x).code)))
    ensures step(x).Completed? ==> RunAll(step, p + [x]) == Trace(p + [x], None)
  {
    RunAllClean(step, p);
    var rest := order[|p|..];
    assert order == p + rest;
    assert rest[0] == x;
    RunAllAppend(step, p, rest);
    RunAllAppend(step, p, [x]);
    assert [x][1..] == [];
  }

  /** One step of the `before_close` loop: a name already called is
      skipped; a new one extends the calls made so far and comes next in the
      full call order. */
  lemma BeforeStep(before: seq<string>, dir: seq<string>, i: nat, called: seq<string>)
    requires i < |before| && called == Dedup(before[..i])
    ensures Dedup(before[..i + 1]) == if before[i] in called then called else called + [before[i]]
    ensures before[i] !in called ==> called + [before[i]] <= CloseOrder(before, dir)
  {
    assert before[..i + 1][..i] == before[..i];
    assert before[..i + 1] + (before[i + 1..] + CloseNames(dir)) == before + CloseNames(dir);
    DedupPrefix(before[..i + 1], before[i + 1..] + CloseNames(dir));
  }

  /** Deduplication appends a new element and ignores a repeated one. */
  lemma DedupSnoc(s: seq<string>, x: string)
    ensures Dedup(s + [x]) == if x in Dedup(s) then Dedup(s) else Dedup(s) + [x]
  {
  }

  lemma CloseNamesSnoc(dir: seq<string>, j: nat)
    requires j < |dir|
    ensures CloseNames(dir[..j + 1]) == CloseNames(dir[..j]) + (if IsCloseMethod(dir[j]) then [dir[j]] else [])
  {
    assert dir[..j + 1][..j] == dir[..j];
  }

  /** The scan of `dir` so far followed by the rest of `dir` is the whole. */
  lemma CloseNamesSplit(before: seq<string>, dir: seq<string>, j: nat)
    requires j <= |dir|
    ensures (before + CloseNames(dir[..j])) + CloseNames(dir[j..]) == before + CloseNames(dir)
  {
    assert dir == dir[..j] + dir[j..];
    CloseNamesAppend(dir[..j], dir[j..]);
  }

  /** One step of the `dir` loop, likewise. */
  lemma DirStep(before: seq<string>, dir: seq<string>, j: nat, called: seq<string>)
    requires j < |dir| && called == Dedup(before + CloseNames(dir[..j]))
    ensures Dedup(before + CloseNames(dir[..j + 1])) ==
              if dir[j] !in called && IsCloseMethod(dir[j]) then called + [dir[j]] else called
    ensures dir[j] !in called && IsCloseMethod(dir[j]) ==> called + [dir[j]] <= CloseOrder(before, dir)
  {
    var name := dir[j];
    var s := before + CloseNames(dir[..j]);
    var prefix := before + CloseNames(dir[..j + 1]);
    CloseNamesSnoc(dir, j);
    if IsCloseMethod(name) {
      assert prefix == s + [name];
      DedupSnoc(s, name);
    } else {
      assert prefix == s;
    }
    CloseNamesSplit(before, dir, j + 1);
    DedupPrefix(prefix, CloseNames(dir[j + 1..]));
  }

  /** Fetch and call one name not called before: `close` ends here when the
      fetch or the call raises, and otherwise goes on with the name added to
      those called. */
  method Visit(step: string -> Step, order: seq<string>, called: seq<string>, name: string)
    returns (next: seq<string>, stop: Option<Trace>)
    requires called + [name] <= order
    requires RunAll(step, called) == Trace(called, None)
    ensures stop.Some? ==> stop.value == RunAll(step, order)
    ensures stop.None? ==> next == called + [name] && RunAll(step, next) == Trace(next, None)
  {
    StopAt(step, called, name, order);
    next := called + [name];
    match step(name)
    case NotFound(e) =>
      stop := Some(Trace(called, Some(e)));
    case Raising(c) =>
      stop := Some(Trace(called + [name], Some(Raised(c))));
    case Completed =>
      stop := None;
  }

  /** One turn of the `before_close` loop: a name already called is
      skipped, a new one is fetched and called. */
  method BeforeTurn(step: string -> Step, before: seq<string>, dir: seq<string>, i: nat, called: seq<string>)
    returns (next: seq<string>, stop: Option<Trace>)
    requires i < |before| && called == Dedup(before[..i])
    requires RunAll(step, called) == Trace(called, None)
    ensures stop.Some? ==> stop.value == RunAll(step, CloseOrder(before, dir))
    ensures stop.None? ==> next == Dedup(before[..i + 1]) && RunAll(step, next) == Trace(next, None)
  {
    BeforeStep(before, dir, i, called);
    if before[i] in called {
      return called, None;
    }
    next, stop := Visit(step, CloseOrder(before, dir), called, before[i]);
  }

  /** The `before_close` loop of `close`: each listed name not called yet
      is fetched and called, in list order. Either `close` ends inside the
      loop, or every listed name completed once. */
  method CallBefore(step: string -> Step, before: seq<string>, dir: seq<string>)
    returns (called: seq<string>, stop: Option<Trace>)
    ensures stop.Some? ==> stop.value == RunAll(step, CloseOrder(before, dir))
    ensures stop.None? ==> called == Dedup(before) && RunAll(step, called) == Trace(called, None)
  {
    called := [];
    var i := 0;
    while i < |before|
      invariant 0 <= i <= |before|
      invariant called == Dedup(before[..i])
      invariant RunAll(step, called) == Trace(called, None)
    {
      var next, s := BeforeTurn(step, before, dir, i, called);
      if s.Some? {
        return called, s;
      }
      called, i := next, i + 1;
    }
    assert before[..i] == before;
    stop := None;
  }

  /** One turn of the `dir` loop: a name already called or not a close
      method is skipped, any other is fetched and called. */
  method DirTurn(step: string -> Step, before: seq<string>, dir: seq<string>, j: nat, called: seq<string>)
    returns (next: seq<string>, stop: Option<Trace>)
    requires j < |dir| && called == Dedup(before + CloseNames(dir[..j]))
    requires RunAll(step, called) == Trace(called, None)
    ensures stop.Some? ==> stop.value == RunAll(step, CloseOrder(before, dir))
    ensures stop.None? ==> next == Dedup(before + CloseNames(dir[..j + 1])) && RunAll(step, next) == Trace(next, None)
  {
    DirStep(before, dir, j, called);
    if dir[j] in called || !IsCloseMethod(dir[j]) {
      return called, None;
    }
    next, stop := Visit(step, CloseOrder(before, dir), called, dir[j]);
  }

  /** The `dir` loop of `close`, entered after the `before_close` names all
      completed: each close method not called yet is fetched and called, in
      `dir` order. */
  method ScanDir(step: string -> Step, before: seq<string>, dir: seq<string>, called0: seq<string>)
    returns (t: Trace)
    requires called0 == Dedup(before) && RunAll(step, called0) == Trace(called0, None)
    ensures t == RunAll(step, CloseOrder(before, dir))
  {
    var called := called0;
    assert before + CloseNames(dir[..0]) == before;
    var j := 0;
    while j < |dir|
      invariant 0 <= j <= |dir|
      invariant called == Dedup(before + CloseNames(dir[..j]))
      invariant RunAll(step, called) == Trace(called, None)
    {
      var next, stop := DirTurn(step, before, dir, j, called);
      if stop.Some? {
        return stop.value;
      }
      called, j := next, j + 1;
    }
    assert dir[..j] == dir;
    t := Trace(called, None);
  }

  /** `close`: the `before_close` loop, then the `dir` loop, with the
      attribute fetched and called by `CloseStep`. */
  method Close(h: Heap, self: Pid, before: seq<string>, dir: seq<string>, depth: nat, run: Attr -> Option<nat>) returns (t: Trace)
    requires Closed(h) && self in h
    ensures t == RunAll(CloseStep(h, self, depth, run), CloseOrder(before, dir))
  {
    var step := CloseStep(h, self, depth, run);
    var called, stop := CallBefore(step, before, dir);
    if stop.Some? {
      return stop.value;
    }
    t := ScanDir(step, before, dir, called);
  }

  /** No name is called twice in one `close`, whether it completes or not.
      Duplicates are removed by name: two names bound to one method call it
      once under each name. */
  lemma CloseCallsEachOnce(step: string -> Step, before: seq<string>, dir: seq<string>)
    ensures NoDup(RunAll(step, CloseOrder(before, dir)).called)
  {
    RunAllPrefix(step, CloseOrder(before, dir));
  }

  /** The call order: the `before_close` names first, each once, in list
      order; after them only close methods of `dir` not listed in
      `before_close`; and, when nothing raises, every listed name and every
      close method of `dir` is called. */
  lemma CloseOrderShape(before: seq<string>, dir: seq<string>)
    ensures Dedup(before) <= CloseOrder(before, dir)
    ensures forall k :: |Dedup(before)| <= k < |CloseOrder(before, dir)| ==>
              IsCloseMethod(CloseOrder(before, dir)[k]) && CloseOrder(before, dir)[k] in dir && CloseOrder(before, dir)[k] !in before
    ensures forall x :: x in CloseOrder(before, dir) <==> x in before || (x in dir && IsCloseMethod(x))
  {
    DedupPrefix(before, CloseNames(dir));
    DedupTail(before, CloseNames(dir));
  }

  /** Only the provider's own close methods are found by the scan: `dir`
      lists the provider's own attributes, and an own attribute is returned
      by `getattr` without asking any extension. (A `before_close` name, in
      contrast, may be served by an extension.) */
  lemma ScanCallsOwnMethods(h: Heap, self: Pid, before: seq<string>, dir: seq<string>, depth: nat)
    requires Closed(h) && self in h
    requires forall x :: x in dir ==> x in h[self].attrs
    ensures forall k :: |Dedup(before)| <= k < |CloseOrder(before, dir)| ==>
              CloseOrder(before, dir)[k] in h[self].attrs &&
              GetAttr(h, self, CloseOrder(before, dir)[k], depth) == Ok(h[self].attrs[CloseOrder(before, dir)[k]])
  {
    CloseOrderShape(before, dir);
  }

  /** `__exit__`: always `close`, and never suppress the exception of the
      `with` block (it returns `None`). */
  method Exit(h: Heap, self: Pid, before: seq<string>, dir: seq<string>, depth: nat, run: Attr -> Option<nat>)
    returns (t: Trace, suppress: bool)
    requires Closed(h) && self in h
    ensures t == RunAll(CloseStep(h, self, depth, run), CloseOrder(before, dir))
    ensures !suppress
  {
    t := Close(h, self, before, dir, depth, run);
    suppress := false;
  }
}

=== FILE: extension.dfy ===
/**
 Provider instances and the extension fallback of `BaseProvider`: `extend`,
 `unextend` and `__getattr__`.

 Python objects are reduced to a heap from ids to objects. An object holds its
 class, its own attributes (what `object.__getattribute__` finds on the
 instance and its class) and its `extends` list; a missing `extends`
 attribute is the empty list. The `extends` list is kept only in its own
 field: `attrs` does not hold the name `extends`, and fetching that name as
 an attribute value (which no operation here needs) is not modelled. An attribute value is known only by its
 identity and by whether it is a method or function (the `isinstance` test of
 `__getattr__`).
 */
module Extension {
  import opened Types

  datatype Attr = Attr(id: nat, isMethod: bool)

  datatype Obj = Obj(cls: ClassId, attrs: map<string, Attr>, extensions: seq<Pid>)

  type Heap = map<Pid, Obj>

  /** Every provider an object extends is itself an object of the heap. */
  predicate Closed(h: Heap)
  {
    forall p, q :: p in h && q in h[p].extensions ==> q in h
  }

  /** `getattr(self, name)` through `__getattr__`. The object's own attribute
      always wins. Otherwise (and never for the name `extends` itself) each
      provider of `extends` is asked in order and the first answer that is a
      method or function is returned; an AttributeError from an extension
      moves on to the next. `depth` is how many nested `__getattr__` calls
      the interpreter still allows: cyclic extension lists end in a
      RecursionError, which propagates. */
  function GetAttr(h: Heap, self: Pid, name: string, depth: nat): (r: Result<Attr>)
    requires Closed(h) && self in h
    ensures name in h[self].attrs ==> r == Ok(h[self].attrs[name])
    ensures r.Ok? && name !in h[self].attrs ==> r.value.isMethod
    ensures (name !in h[self].attrs && (name == "extends" || h[self].extensions == [])) ==> r == Err(MissingAttribute(name))
    ensures r.Err? ==> r.error == MissingAttribute(name) || r.error == TooDeep
    decreases depth, 1
  {
    if name in h[self].attrs then Ok(h[self].attrs[name])
    else if name == "extends" then Err(MissingAttribute(name))
    else FromExtensions(h, h[self].extensions, name, depth)
  }

  /** The loop over the extension list, in order. */
  function FromExtensions(h: Heap, ps: seq<Pid>, name: string, depth: nat): (r: Result<Attr>)
    requires Closed(h) && forall q :: q in ps ==> q in h
    ensures r.Ok? ==> r.value.isMethod
    ensures r.Err? ==> r.error == MissingAttribute(name) || r.error == TooDeep
    decreases depth, 0, |ps|
  {
    if |ps| == 0 then Err(MissingAttribute(name))
    else if depth == 0 then Err(TooDeep)
    else
      match GetAttr(h, ps[0], name, depth - 1)
      case Ok(a) =>
        if a.isMethod then Ok(a) else FromExtensions(h, ps[1..], name, depth)
      case Err(e) =>
        if e.MissingAttribute? then FromExtensions(h, ps[1..], name, depth) else Err(e)
  }

  /** Extension `p` answers `name` with a method. */
  predicate Offers(h: Heap, p: Pid, name: string, depth: nat)
    requires Closed(h) && p in h
  {
    var r := GetAttr(h, p, name, depth);
    r.Ok? && r.value.isMethod
  }

  /** Extension `p` has no method for `name`: an AttributeError, or an
      attribute that is not a method. */
  predicate Declines(h: Heap, p: Pid, name: string, depth: nat)
    requires Closed(h) && p in h
  {
    var r := GetAttr(h, p, name, depth);
    r == Err(MissingAttribute(name)) || (r.Ok? && !r.value.isMethod)
  }

  /** The fallback order in full: the first extension that offers a method
      wins, extensions that decline are passed over, and when every
      extension declines the lookup fails with AttributeError. */
  lemma {:induction false} FromExtensionsOrder(h: Heap, ps: seq<Pid>, name: string, depth: nat)
    requires Closed(h) && (forall q :: q in ps ==> q in h) && depth > 0
    ensures forall i :: 0 <= i < |ps| && Offers(h, ps[i], name, depth - 1) &&
                        (forall j :: 0 <= j < i ==> Declines(h, ps[j], name, depth - 1))
              ==> FromExtensions(h, ps, name, depth) == GetAttr(h, ps[i], name, depth - 1)
    ensures (forall i :: 0 <= i < |ps| ==> Declines(h, ps[i], name, depth - 1))
              ==> FromExtensions(h, ps, name, depth) == Err(MissingAttribute(name))
    decreases |ps|
  {
    if |ps| > 0 {
      FromExtensionsOrder(h, ps[1..], name, depth);
      assert forall i :: 1 <= i < |ps| ==> ps[i] == ps[1..][i - 1];
    }
  }

  /** `__getattr__` from the provider's side: with no attribute of its own,
      the provider answers with the first method its extensions offer, and
      fails when they all decline. */
  lemma AttributeFallback(h: Heap, self: Pid, name: string, depth: nat)
    requires Closed(h) && self in h && depth > 0
    requires name !in h[self].attrs && name != "extends"
    ensures forall i :: 0 <= i < |h[self].extensions| && Offers(h, h[self].extensions[i], name, depth - 1) &&
                        (forall j :: 0 <= j < i ==> Declines(h, h[self].extensions[j], name, depth - 1))
              ==> GetAttr(h, self, name, depth) == GetAttr(h, h[self].extensions[i], name, depth - 1)
    ensures (forall i :: 0 <= i < |h[self].extensions| ==> Declines(h, h[self].extensions[i], name, depth - 1))
              ==> GetAttr(h, self, name, depth) == Err(MissingAttribute(name))
  {
    FromExtensionsOrder(h, h[self].extensions, name, depth);
  }

  /** Assign the extension list of `self`, leaving everything else alone. */
  function SetExtensions(h: Heap, self: Pid, e: seq<Pid>): (r: Heap)
    requires Closed(h) && self in h && forall q :: q in e ==> q in h
    ensures Closed(r) && r.Keys == h.Keys
    ensures r[self] == h[self].(extensions := e)
    ensures forall p :: p in h && p != self ==> r[p] == h[p]
  {
    h[self := h[self].(extensions := e)]
  }

  /** `self.extend(*providers)`: append to the extension list, in order. */
  function Extend(h: Heap, self: Pid, ps: seq<Pid>): (r: Heap)
    requires Closed(h) && self in h && forall q :: q in ps ==> q in h
    ensures Closed(r) && r.Keys == h.Keys
    ensures r[self].extensions == h[self].extensions + ps
    ensures r[self].attrs == h[self].attrs && r[self].cls == h[self].cls
    ensures forall p :: p in h && p != self ==> r[p] == h[p]
  {
    SetExtensions(h, self, h[self].extensions + ps)
  }

  /** Position of the first occurrence of `x`. */
  function IndexOf(s: seq<Pid>, x: Pid): (i: nat)
    requires x in s
    ensures i < |s| && s[i] == x
    ensures forall k :: 0 <= k < i ==> s[k] != x
  {
    if s[0] == x then 0 else 1 + IndexOf(s[1..], x)
  }

  /** `s.remove(x)`: drop the first occurrence of `x`. */
  function RemoveFirst(s: seq<Pid>, x: Pid): (r: seq<Pid>)
    requires x in s
    ensures |r| == |s| - 1
    ensures r == s[..IndexOf(s, x)] + s[IndexOf(s, x) + 1..]
    ensures multiset(r) == multiset(s) - multiset{x}
    ensures forall q :: q in r ==> q in s
  {
    var i := IndexOf(s, x);
    assert s == s[..i] + [x] + s[i + 1..];
    s[..i] + s[i + 1..]
  }

  /** Removing `p` first and then `rest` is removing all of `[p] + rest`. */
  lemma MultisetStep(e: multiset<Pid>, p: Pid, rest: multiset<Pid>)
    requires p in e
    ensures (multiset{p} + rest <= e) <==> (rest <= e - multiset{p})
    ensures e - multiset{p} - rest == e - (multiset{p} + rest)
  {
  }

  /** Walk `ps` taking each provider out of `e` in turn, and stop at the
      first one `e` no longer holds: its position, or `|ps|` when there is
      none. `ShortfallIsFirst` states what the position means. */
  function Shortfall(e: multiset<Pid>, ps: seq<Pid>): (k: nat)
    ensures k <= |ps|
  {
    if |ps| == 0 || ps[0] !in e then 0
    else 1 + Shortfall(e - multiset{ps[0]}, ps[1..])
  }

  /** `idx` places the elements of `a` in `b` at strictly increasing
      positions. */
  predicate Embeds(idx: seq<nat>, a: seq<Pid>, b: seq<Pid>)
  {
    |idx| == |a| &&
    (forall k :: 0 <= k < |idx| ==> idx[k] < |b| && a[k] == b[idx[k]]) &&
    (forall k, l :: 0 <= k < l < |idx| ==> idx[k] < idx[l])
  }

  /** `a` is `b` with some elements left out and the rest in their order. */
  ghost predicate Subsequence(a: seq<Pid>, b: seq<Pid>)
  {
    exists idx :: Embeds(idx, a, b)
  }

  lemma SubsequenceRefl(s: seq<Pid>)
    ensures Subsequence(s, s)
  {
    var idx := seq(|s|, k requires 0 <= k < |s| => k);
    assert Embeds(idx, s, s);
  }

  lemma SubsequenceTrans(a: seq<Pid>, b: seq<Pid>, c: seq<Pid>)
    requires Subsequence(a, b) && Subsequence(b, c)
    ensures Subsequence(a, c)
  {
    var i1 :| Embeds(i1, a, b);
    var i2 :| Embeds(i2, b, c);
    var i3 := seq(|a|, k requires 0 <= k < |a| => i2[i1[k]]);
    assert Embeds(i3, a, c);
  }

  /** `list.remove` keeps the order of what it leaves. */
  lemma RemoveFirstSubsequence(s: seq<Pid>, x: Pid)
    requires x in s
    ensures Subsequence(RemoveFirst(s, x), s)
  {
    var i := IndexOf(s, x);
    var r := RemoveFirst(s, x);
    var idx := seq(|r|, k requires 0 <= k < |r| => if k < i then k else k + 1);
    assert Embeds(idx, r, s);
  }

  /** The reference for removing the elements of `m`: walk `e` from the
      left and drop an element while `m` still owes a copy of it. The copies
      dropped are therefore the earliest ones. */
  function Keep(e: seq<Pid>, m: multiset<Pid>): (r: seq<Pid>)
    ensures |r| <= |e|
  {
    if |e| == 0 then []
    else
      assert e == [e[0]] + e[1..];
      if m[e[0]] > 0 then Keep(e[1..], m - multiset{e[0]})
      else [e[0]] + Keep(e[1..], m)
  }

  /** `Keep` drops exactly the copies `e` can pay of what `m` owes. */
  lemma {:induction false} KeepMultiset(e: seq<Pid>, m: multiset<Pid>)
    ensures multiset(Keep(e, m)) == multiset(e) - m
  {
    if |e| > 0 {
      assert e == [e[0]] + e[1..];
      if m[e[0]] > 0 {
        KeepMultiset(e[1..], m - multiset{e[0]});
      } else {
        KeepMultiset(e[1..], m);
      }
    }
  }

  /** Dropping nothing keeps the whole list. */
  lemma {:induction false} KeepNothing(e: seq<Pid>)
    ensures Keep(e, multiset{}) == e
  {
    if |e| > 0 {
      KeepNothing(e[1..]);
    }
  }

  /** One `list.remove` of `x` and then the rest is the left-to-right walk
      owing `x` as well: `remove` drops the earliest copy, as `Keep` does. */
  lemma {:induction false} KeepRemoveFirst(e: seq<Pid>, x: Pid, m: multiset<Pid>)
    requires x in e
    ensures Keep(RemoveFirst(e, x), m) == Keep(e, multiset{x} + m)
  {
    var y := e[0];
    if y == x {
      assert IndexOf(e, x) == 0;
      assert RemoveFirst(e, x) == e[1..];
      assert (multiset{x} + m) - multiset{x} == m;
    } else {
      var t := e[1..];
      assert x in t;
      var i := IndexOf(t, x);
      assert IndexOf(e, x) == 1 + i;
      var r := RemoveFirst(t, x);
      assert RemoveFirst(e, x) == [y] + r by {
        assert e[..1 + i] == [y] + t[..i];
        assert e[1 + i + 1..] == t[i + 1..];
      }
      assert ([y] + r)[0] == y && ([y] + r)[1..] == r;
      assert (multiset{x} + m)[y] == m[y];
      if m[y] > 0 {
        KeepRemoveFirst(t, x, m - multiset{y});
        assert (multiset{x} + m) - multiset{y} == multiset{x} + (m - multiset{y});
      } else {
        KeepRemoveFirst(t, x, m);
      }
    }
  }

  /** The list left by the `unextend` loop and, when a `remove` raised, the
      position in `providers` of the provider that was missing. */
  datatype Removal = Removal(rest: seq<Pid>, failed: Option<nat>)

  /** The loop of `unextend`: remove one occurrence of each provider in turn.
      The list is changed in place, so the removals made before a missing
      provider stay made. The loop fails at the first position `k` whose
      provider is no longer in the list, that is, the first `k` at which the
      providers up to and including `k`, counted with multiplicity, are more
      than the list holds. */
  function RemoveEach(e: seq<Pid>, ps: seq<Pid>): (r: Removal)
    ensures r.failed.None? <==> multiset(ps) <= multiset(e)
    ensures r.failed.None? ==> multiset(r.rest) == multiset(e) - multiset(ps)
    ensures r.failed.Some? ==>
              var k := r.failed.value;
              k < |ps| && multiset(ps[..k]) <= multiset(e) && !(multiset(ps[..k + 1]) <= multiset(e)) &&
              multiset(r.rest) == multiset(e) - multiset(ps[..k])
    ensures Subsequence(r.rest, e)
    ensures forall q :: q in r.rest ==> q in e
  {
    if |ps| == 0 then
      SubsequenceRefl(e);
      Removal(e, None)
    else if ps[0] !in e then
      assert ps[0] in multiset(ps) && ps[0] !in multiset(e);
      assert ps[..0] == [] && ps[..1] == [ps[0]];
      SubsequenceRefl(e);
      Removal(e, Some(0))
    else
      var e' := RemoveFirst(e, ps[0]);
      var r := RemoveEach(e', ps[1..]);
      assert ps == [ps[0]] + ps[1..];
      MultisetStep(multiset(e), ps[0], multiset(ps[1..]));
      RemoveFirstSubsequence(e, ps[0]);
      SubsequenceTrans(r.rest, e', e);
      match r.failed
      case None => r
      case Some(k) =>
        RemoveEachStep(e, ps, k);
        Removal(r.rest, Some(k + 1))
  }

  /** One turn of the `unextend` loop: remove the first provider, then go on
      with the others. */
  lemma RemoveEachUnfold(e: seq<Pid>, ps: seq<Pid>)
    requires |ps| > 0 && ps[0] in e
    ensures var r := RemoveEach(RemoveFirst(e, ps[0]), ps[1..]);
            RemoveEach(e, ps) == (if r.failed.None? then r else Removal(r.rest, Some(r.failed.value + 1)))
  {
  }

  /** Which copies the `unextend` loop removes: the earliest ones. What is
      left is the left-to-right walk `Keep` owing the providers removed,
      that is all of them, or those before the one that was missing. */
  lemma {:induction false} RemoveEachKeeps(e: seq<Pid>, ps: seq<Pid>)
    ensures var r := RemoveEach(e, ps);
            r.failed.None? ==> r.rest == Keep(e, multiset(ps))
    ensures var r := RemoveEach(e, ps);
            r.failed.Some? ==> r.rest == Keep(e, multiset(ps[..r.failed.value]))
  {
    if |ps| == 0 {
      KeepNothing(e);
    } else if ps[0] !in e {
      assert ps[..0] == [];
      KeepNothing(e);
    } else {
      var e' := RemoveFirst(e, ps[0]);
      RemoveEachKeeps(e', ps[1..]);
      RemoveEachUnfold(e, ps);
      KeepsCombine(e, ps, RemoveEach(e', ps[1..]));
    }
  }

  /** The step of `RemoveEachKeeps`: what holds of the loop over `ps[1..]`
      after removing `ps[0]` holds of the loop over `ps`. */
  lemma KeepsCombine(e: seq<Pid>, ps: seq<Pid>, r: Removal)
    requires |ps| > 0 && ps[0] in e
    requires r.failed.None? ==> r.rest == Keep(RemoveFirst(e, ps[0]), multiset(ps[1..]))
    requires r.failed.Some? ==>
               r.failed.value < |ps| - 1 &&
               r.rest == Keep(RemoveFirst(e, ps[0]), multiset(ps[1..][..r.failed.value]))
    ensures var r0 := if r.failed.None? then r else Removal(r.rest, Some(r.failed.value + 1));
            (r0.failed.None? ==> r0.rest == Keep(e, multiset(ps))) &&
            (r0.failed.Some? ==> r0.failed.value <= |ps| && r0.rest == Keep(e, multiset(ps[..r0.failed.value])))
  {
    match r.failed
    case None =>
      KeepStep(e, ps, |ps| - 1);
    case Some(k) =>
      KeepStep(e, ps, k);
  }

  /** Owing `ps[0]` and then `ps[1..][..k]` is owing `ps[..k + 1]`. */
  lemma KeepStep(e: seq<Pid>, ps: seq<Pid>, k: nat)
    requires |ps| > 0 && ps[0] in e && k < |ps|
    ensures Keep(RemoveFirst(e, ps[0]), multiset(ps[1..][..k])) == Keep(e, multiset(ps[..k + 1]))
    ensures k == |ps| - 1 ==> ps[1..][..k] == ps[1..] && ps[..k + 1] == ps
  {
    assert ps[..k + 1] == [ps[0]] + ps[1..][..k];
    KeepRemoveFirst(e, ps[0], multiset(ps[1..][..k]));
  }

  /** A failure at position `k` of the remaining providers, after the first
      one was removed, is a failure at position `k + 1` of them all. */
  lemma RemoveEachStep(e: seq<Pid>, ps: seq<Pid>, k: nat)
    requires |ps| > 0 && ps[0] in e && k < |ps| - 1
    ensures multiset(ps[..k + 1]) == multiset{ps[0]} + multiset(ps[1..][..k])
    ensures multiset(ps[..k + 2]) == multiset{ps[0]} + multiset(ps[1..][..k + 1])
    ensures (multiset(ps[..k + 1]) <= multiset(e)) <==> (multiset(ps[1..][..k]) <= multiset(e) - multiset{ps[0]})
    ensures (multiset(ps[..k + 2]) <= multiset(e)) <==> (multiset(ps[1..][..k + 1]) <= multiset(e) - multiset{ps[0]})
    ensures multiset(e) - multiset{ps[0]} - multiset(ps[1..][..k]) == multiset(e) - multiset(ps[..k + 1])
  {
    assert ps[..k + 1] == [ps[0]] + ps[1..][..k];
    assert ps[..k + 2] == [ps[0]] + ps[1..][..k + 1];
    MultisetStep(multiset(e), ps[0], multiset(ps[1..][..k]));
    MultisetStep(multiset(e), ps[0], multiset(ps[1..][..k + 1]));
  }

  /** The loop stops exactly at the shortfall: it fails there when there is
      one, and succeeds otherwise. */
  lemma {:induction false} RemoveEachShortfall(e: seq<Pid>, ps: seq<Pid>)
    ensures RemoveEach(e, ps).failed.None? <==> Shortfall(multiset(e), ps) == |ps|
    ensures RemoveEach(e, ps).failed.Some? ==> RemoveEach(e, ps).failed.value == Shortfall(multiset(e), ps)
  {
    if |ps| > 0 && ps[0] in e {
      var e' := RemoveFirst(e, ps[0]);
      RemoveEachShortfall(e', ps[1..]);
      RemoveEachUnfold(e, ps);
      ShortfallCombine(multiset(e), ps, RemoveEach(e', ps[1..]).failed);
    }
  }

  /** The step of `RemoveEachShortfall`: a stop at the shortfall of
      `ps[1..]` against `e` less `ps[0]` is a stop at the shortfall of `ps`
      against `e`, one position later. */
  lemma ShortfallCombine(e: multiset<Pid>, ps: seq<Pid>, f: Option<nat>)
    requires |ps| > 0 && ps[0] in e
    requires f.None? <==> Shortfall(e - multiset{ps[0]}, ps[1..]) == |ps| - 1
    requires f.Some? ==> f.value == Shortfall(e - multiset{ps[0]}, ps[1..])
    ensures f.None? <==> Shortfall(e, ps) == |ps|
    ensures f.Some? ==> f.value + 1 == Shortfall(e, ps)
  {
  }

  /** `k` is the first position at which `ps` asks `e` for a provider it no
      longer holds: the providers before `k` are all held by `e`, counted
      with multiplicity, and the one at `k` is not held by what is left of
      `e` once those are taken out. `k` is `|ps|` exactly when `e` holds all
      of `ps`. */
  predicate FirstShortfall(e: multiset<Pid>, ps: seq<Pid>, k: nat)
  {
    k <= |ps| && multiset(ps[..k]) <= e &&
    (k < |ps| ==> ps[k] !in e - multiset(ps[..k])) &&
    (k == |ps| <==> multiset(ps) <= e)
  }

  /** The walk stops at the first shortfall. */
  lemma {:induction false} ShortfallIsFirst(e: multiset<Pid>, ps: seq<Pid>)
    ensures FirstShortfall(e, ps, Shortfall(e, ps))
  {
    if |ps| == 0 {
      assert ps[..0] == ps;
    } else if ps[0] !in e {
      ShortfallAtHead(e, ps);
    } else {
      var k := Shortfall(e - multiset{ps[0]}, ps[1..]);
      ShortfallIsFirst(e - multiset{ps[0]}, ps[1..]);
      ShortfallStep(e, ps, k);
      assert Shortfall(e, ps) == k + 1;
    }
  }

  /** There is only one first shortfall, so `Shortfall` is the position
      `FirstShortfall` describes. */
  lemma FirstShortfallUnique(e: multiset<Pid>, ps: seq<Pid>, k1: nat, k2: nat)
    requires FirstShortfall(e, ps, k1) && FirstShortfall(e, ps, k2)
    ensures k1 == k2
  {
    if k1 < k2 {
      TakenBefore(e, ps, k1, k2);
    } else if k2 < k1 {
      TakenBefore(e, ps, k2, k1);
    }
  }

  /** When `e` holds the providers before `j`, the one at an earlier `i` is
      still held once those before `i` are taken out. */
  lemma TakenBefore(e: multiset<Pid>, ps: seq<Pid>, i: nat, j: nat)
    requires i < j <= |ps| && multiset(ps[..j]) <= e
    ensures ps[i] in e - multiset(ps[..i])
  {
    assert ps[..j] == ps[..i] + [ps[i]] + ps[i + 1..j];
    assert multiset(ps[..i]) + multiset{ps[i]} <= multiset(ps[..j]);
  }

  /** A first provider that `e` does not hold is a shortfall at position 0. */
  lemma ShortfallAtHead(e: multiset<Pid>, ps: seq<Pid>)
    requires |ps| > 0 && ps[0] !in e
    ensures FirstShortfall(e, ps, 0)
  {
    assert ps[..0] == [];
    assert ps[0] in multiset(ps);
  }

  /** A shortfall at `k` in `ps[1..]` against `e` less `ps[0]` is one at
      `k + 1` in `ps` against `e`. */
  lemma ShortfallStep(e: multiset<Pid>, ps: seq<Pid>, k: nat)
    requires |ps| > 0 && ps[0] in e
    requires FirstShortfall(e - multiset{ps[0]}, ps[1..], k)
    ensures FirstShortfall(e, ps, k + 1)
  {
    assert ps[..k + 1] == [ps[0]] + ps[1..][..k];
    assert ps == [ps[0]] + ps[1..];
    MultisetStep(e, ps[0], multiset(ps[1..][..k]));
    MultisetStep(e, ps[0], multiset(ps[1..]));
  }

  /** The outcome of `unextend`: the heap afterwards and the ValueError, if any. */
  datatype Unextended = Unextended(heap: Heap, error: Option<Error>)

  /** `self.unextend(*providers)`: remove one occurrence of each provider,
      keeping the order of the rest; a ValueError for the first one that is
      absent by then, with the earlier removals already made. */
  function Unextend(h: Heap, self: Pid, ps: seq<Pid>): (r: Unextended)
    requires Closed(h) && self in h
    ensures Closed(r.heap) && r.heap.Keys == h.Keys
    ensures r.error.None? <==> multiset(ps) <= multiset(h[self].extensions)
    ensures r.error.None? ==> multiset(r.heap[self].extensions) == multiset(h[self].extensions) - multiset(ps)
    ensures r.error.Some? ==>
              var k := Shortfall(multiset(h[self].extensions), ps);
              k < |ps| && r.error == Some(NotInExtends(ps[k])) &&
              multiset(r.heap[self].extensions) == multiset(h[self].extensions) - multiset(ps[..k])
    ensures Subsequence(r.heap[self].extensions, h[self].extensions)
    ensures r.heap[self].attrs == h[self].attrs && r.heap[self].cls == h[self].cls
    ensures forall p :: p in h && p != self ==> r.heap[p] == h[p]
  {
    var e := h[self].extensions;
    var rm := RemoveEach(e, ps);
    RemoveEachShortfall(e, ps);
    var h' := SetExtensions(h, self, rm.rest);
    match rm.failed
    case None => Unextended(h', None)
    case Some(k) => Unextended(h', Some(NotInExtends(ps[k])))
  }

  /** `unextend` sets the list the loop leaves and reports the provider at
      the position where it failed. */
  lemma UnextendUnfold(h: Heap, self: Pid, ps: seq<Pid>)
    requires Closed(h) && self in h
    ensures var rm := RemoveEach(h[self].extensions, ps);
            var r := Unextend(h, self, ps);
            r.heap[self].extensions == rm.rest &&
            (rm.failed.None? ==> r.error.None?) &&
            (rm.failed.Some? ==> rm.failed.value < |ps| && r.error == Some(NotInExtends(ps[rm.failed.value])))
  {
  }

  /** Which copies `unextend` removes: the earliest ones. The list left is
      the left-to-right walk `Keep` owing every provider, or, after a
      ValueError at the shortfall, owing the providers before it. */
  lemma UnextendKeeps(h: Heap, self: Pid, ps: seq<Pid>)
    requires Closed(h) && self in h
    ensures var r := Unextend(h, self, ps);
            r.error.None? ==> r.heap[self].extensions == Keep(h[self].extensions, multiset(ps))
    ensures var r := Unextend(h, self, ps);
            var k := Shortfall(multiset(h[self].extensions), ps);
            r.error.Some? ==> r.heap[self].extensions == Keep(h[self].extensions, multiset(ps[..k]))
  {
    RemoveEachKeeps(h[self].extensions, ps);
    RemoveEachShortfall(h[self].extensions, ps);
    UnextendUnfold(h, self, ps);
  }

  /** Removing the first added provider from `e + ps` leaves `e + ps[1..]`
      when it was not already in `e`. */
  lemma RemoveFirstAppend(e: seq<Pid>, ps: seq<Pid>)
    requires |ps| > 0 && ps[0] !in e
    ensures RemoveFirst(e + ps, ps[0]) == e + ps[1..]
  {
    var s := e + ps;
    assert forall k :: 0 <= k < |e| ==> s[k] == e[k];
    assert s[|e|] == ps[0];
    var i := IndexOf(s, ps[0]);
    assert i == |e|;
    assert s[..i] == e && s[i + 1..] == ps[1..];
  }

  /** `unextend` undoes `extend` when the added providers were not already
      extended. */
  lemma {:induction false} ExtendThenUnextend(e: seq<Pid>, ps: seq<Pid>)
    requires forall q :: q in ps ==> q !in e
    ensures RemoveEach(e + ps, ps) == Removal(e, None)
    decreases |ps|
  {
    if |ps| > 0 {
      var x := ps[0];
      assert x in ps;
      RemoveFirstAppend(e, ps);
      assert e + ps[1..] == RemoveFirst(e + ps, x);
      assert forall q :: q in ps[1..] ==> q in ps;
      ExtendThenUnextend(e, ps[1..]);
    }
  }
}

=== FILE: notes.dfy ===
/**
 The note grammar of `BaseProvider`: a note `'object:name'` names the
 accessor `get_object` and, optionally, the name passed to it.

 The source parses with the pattern `([^:]*):?(.*)` applied at the start of
 the note and maps empty groups to `None`. The first group takes everything
 up to the first colon (newlines included); the second takes what follows
 that colon up to the first newline, because `.` does not match a newline.
 */
module Notes {
  import opened Types

  /** A parsed note: the basename and the optional qualifier. */
  datatype ParsedNote = ParsedNote(base: Option<string>, name: Option<string>)

  /** Index of the first colon, or `|s|` when there is none: the extent of
      the group `[^:]*`. */
  function FirstColon(s: string): (i: nat)
    ensures i <= |s|
    ensures forall k :: 0 <= k < i ==> s[k] != ':'
    ensures i < |s| ==> s[i] == ':'
  {
    if |s| == 0 || s[0] == ':' then 0 else 1 + FirstColon(s[1..])
  }

  /** The longest prefix without a newline: what `.*` matches. */
  function UpToNewline(s: string): (r: string)
    ensures r <= s
    ensures forall k :: 0 <= k < |r| ==> r[k] != '\n'
    ensures |r| < |s| ==> s[|r|] == '\n'
  {
    if |s| == 0 || s[0] == '\n' then [] else [s[0]] + UpToNewline(s[1..])
  }

  /** `group or None`: the empty string becomes `None`. */
  function NoneIfEmpty(s: string): (r: Option<string>)
    ensures r.None? <==> s == []
    ensures r.Some? ==> r.value == s
  {
    if s == [] then None else Some(s)
  }

  /** `parse_note`: split on the first colon; empty parts become `None`. */
  function ParseNote(note: string): (r: ParsedNote)
    ensures r.base.Some? ==> r.base.value != [] && forall k :: 0 <= k < |r.base.value| ==> r.base.value[k] != ':'
    ensures r.name.Some? ==> r.name.value != [] && forall k :: 0 <= k < |r.name.value| ==> r.name.value[k] != '\n'
    ensures (forall k :: 0 <= k < |note| ==> note[k] != ':') ==> r == ParsedNote(NoneIfEmpty(note), None)
    ensures forall i :: 0 <= i < |note| && note[i] == ':' && (forall k :: 0 <= k < i ==> note[k] != ':') ==>
              r == ParsedNote(NoneIfEmpty(note[..i]), NoneIfEmpty(UpToNewline(note[i + 1..])))
  {
    var i := FirstColon(note);
    if i == |note| then ParsedNote(NoneIfEmpty(note), None)
    else ParsedNote(NoneIfEmpty(note[..i]), NoneIfEmpty(UpToNewline(note[i + 1..])))
  }

  /** The basename as `str.format` renders it: `None` prints as "None". */
  function BaseText(base: Option<string>): string
  {
    match base
    case None => "None"
    case Some(b) => b
  }

  /** `format_accessor_name` with the default `accessor_pattern` 'get_{}'. */
  function AccessorName(base: Option<string>): (r: string)
    ensures |r| >= 4 && r[..4] == "get_"
    ensures r[4..] == BaseText(base)
  {
    "get_" + BaseText(base)
  }

  /** Distinct basenames name distinct accessors. */
  lemma AccessorNameInjective(a: string, b: string)
    requires AccessorName(Some(a)) == AccessorName(Some(b))
    ensures a == b
  {
  }

  /** A note with no basename (`':b'` or the empty note) is served by the
      accessor `get_None`, the same one the basename "None" names. */
  lemma MissingBaseNamesGetNone()
    ensures AccessorName(ParseNote(":b").base) == "get_None"
    ensures AccessorName(None) == AccessorName(Some("None"))
  {
  }

  /** A basename that can appear in a note: non-empty, no colon. */
  predicate ValidBase(b: string)
  {
    b != [] && forall k :: 0 <= k < |b| ==> b[k] != ':'
  }

  /** A qualifier that survives parsing: non-empty, no newline. */
  predicate ValidName(n: string)
  {
    n != [] && forall k :: 0 <= k < |n| ==> n[k] != '\n'
  }

  /** The note text `basename[:name]` for a parsed note. */
  function FormatNote(p: ParsedNote): string
  {
    var b := match p.base case None => "" case Some(s) => s;
    match p.name
    case None => b
    case Some(n) => b + ":" + n
  }

  /** A string without newlines is matched by `.*` in full. */
  lemma UpToNewlineWhole(s: string)
    requires forall k :: 0 <= k < |s| ==> s[k] != '\n'
    ensures UpToNewline(s) == s
  {
  }

  /** Parsing undoes formatting for every note the grammar can produce. */
  lemma ParseFormat(p: ParsedNote)
    requires p.base.Some? ==> ValidBase(p.base.value)
    requires p.name.Some? ==> ValidName(p.name.value)
    ensures ParseNote(FormatNote(p)) == p
  {
    var b := match p.base case None => "" case Some(s) => s;
    var note := FormatNote(p);
    match p.name
    case None =>
      assert note == b;
    case Some(n) =>
      assert note == b + ":" + n;
      assert note[|b|] == ':';
      assert forall k :: 0 <= k < |b| ==> note[k] == b[k];
      assert note[..|b|] == b;
      assert note[|b| + 1..] == n;
      UpToNewlineWhole(n);
  }

  /** A note that formatting gives back unchanged after parsing: either it
      has no colon, or the text after its first colon is non-empty and has
      no newline. The basename part may be empty and may hold newlines. */
  predicate Canonical(note: string)
  {
    var i := FirstColon(note);
    i == |note| || (i + 1 < |note| && forall k :: i < k < |note| ==> note[k] != '\n')
  }

  /** Formatting undoes parsing exactly for the canonical notes. The others
      lose a trailing colon, or the qualifier's text from its first newline
      on. */
  lemma FormatParse(note: string)
    ensures FormatNote(ParseNote(note)) == note <==> Canonical(note)
  {
    var i := FirstColon(note);
    if i < |note| {
      var rest := note[i + 1..];
      var u := UpToNewline(rest);
      assert note == note[..i] + ":" + rest;
      if forall k :: 0 <= k < |rest| ==> rest[k] != '\n' {
        UpToNewlineWhole(rest);
      } else {
        assert |u| < |rest|;
      }
      if Canonical(note) {
        assert forall k :: 0 <= k < |rest| ==> rest[k] == note[i + 1 + k];
        UpToNewlineWhole(rest);
      } else if u != [] {
        assert u != rest;
        assert |note[..i] + ":" + u| < |note|;
      }
    }
  }

  /** The note with no basename and the empty note survive the round trip. */
  lemma FormatParseExamples()
    ensures FormatNote(ParseNote(":b")) == ":b"
    ensures FormatNote(ParseNote("")) == ""
  {
    assert FirstColon(":b") == 0 && ":b"[..0] == [] && ":b"[1..] == "b";
    assert UpToNewline("b") == "b";
    assert ParseNote("") == ParsedNote(None, None);
  }

  /** A trailing colon and the qualifier's text from a newline on do not
      survive the round trip. */
  lemma FormatParseLosses()
    ensures FormatNote(ParseNote("a:")) == "a"
    ensures FormatNote(ParseNote("a:b\nc")) == "a:b"
  {
    assert FirstColon("a:") == 1 && "a:"[..1] == "a" && "a:"[2..] == [];
    assert FirstColon("a:b\nc") == 1 && "a:b\nc"[..1] == "a" && "a:b\nc"[2..] == "b\nc";
    assert UpToNewline("b\nc") == "b";
  }

  /** The worked examples: the qualifier keeps later colons, and empty parts
      become `None`. */
  lemma ParseNoteExamples()
    ensures ParseNote("a") == ParsedNote(Some("a"), None)
    ensures ParseNote("a:") == ParsedNote(Some("a"), None)
    ensures ParseNote(":b") == ParsedNote(None, Some("b"))
    ensures ParseNote("a:b:c") == ParsedNote(Some("a"), Some("b:c"))
    ensures ParseNote("a:b\nc") == ParsedNote(Some("a"), Some("b"))
  {
    assert FirstColon("a") == 1;
    assert FirstColon("a:") == 1;
    assert "a:"[..1] == "a" && "a:"[2..] == [];
    assert FirstColon(":b") == 0;
    assert FirstColon("a:b:c") == 1;
    assert "a:b:c"[..1] == "a" && "a:b:c"[2..] == "b:c";
    assert UpToNewline("b:c") == "b:c";
    assert FirstColon("a:b\nc") == 1;
    assert "a:b\nc"[..1] == "a" && "a:b\nc"[2..] == "b\nc";
    assert UpToNewline("b\nc") == "b";
  }
}

=== FILE: registry.dfy ===
/**
 The annotation registry of `BaseProvider`: `annotate`, `unannotate`,
 `implement` and the class-walking `lookup`.

 The source keeps two dictionaries on the base class, one from a class to its
 table of annotated callables and one from a class to the list of classes it
 implements. A Python class is reduced here to an id together with its method
 resolution order, which the caller supplies as `mro` (Python's `cls.mro()`,
 the class itself first). The registry also records which classes are
 providers, that is, derive from `BaseProvider` and so have `lookup` and the
 two registries. Classes that are not providers, such as mixins and
 `object`, never appear as keys of the registry, so the MRO walk skips them
 in the same way the source's `hasattr` test does; an implemented class that
 is not a provider has no `lookup` to call.
 */
module Registry {
  import opened Types

  /** The notes of one annotation: positional notes in order and keyword
      notes in the insertion order of the `**keyword_notes` dictionary. */
  datatype Annotation = Annotation(notes: seq<string>, keywords: seq<(string, string)>)

  /** `class_annotation` and `class_implements`, and the provider classes. */
  datatype ClassRegistry = ClassRegistry(
    annotations: map<ClassId, map<Callable, Annotation>>,
    implements: map<ClassId, seq<ClassId>>,
    providers: set<ClassId>)

  /** The method resolution order of every class. */
  type Mro = ClassId -> seq<ClassId>

  /** The table `class_annotation[cls]`, empty when the class never annotated. */
  function Table(reg: ClassRegistry, cls: ClassId): map<Callable, Annotation>
  {
    if cls in reg.annotations then reg.annotations[cls] else map[]
  }

  /** The entry registered on exactly `cls` for exactly `fn`. */
  function Entry(reg: ClassRegistry, cls: ClassId, fn: Callable): Option<Annotation>
  {
    if fn in Table(reg, cls) then Some(Table(reg, cls)[fn]) else None
  }

  /** The classes `cls` implements; none when it never called `implement`. */
  function Implements(reg: ClassRegistry, cls: ClassId): seq<ClassId>
  {
    if cls in reg.implements then reg.implements[cls] else []
  }

  /** `cls.annotate(*notes, **keyword_notes)(fn)`: register (or overwrite)
      the entry for `fn` in `cls`'s own table. Building the decorator creates
      the table; applying it stores the entry; the decorator hands `fn`
      back untouched, so only the registry changes. */
  function Annotate(reg: ClassRegistry, cls: ClassId, fn: Callable, a: Annotation): (r: ClassRegistry)
    ensures Entry(r, cls, fn) == Some(a)
    ensures forall c, f :: (c != cls || f != fn) ==> Entry(r, c, f) == Entry(reg, c, f)
    ensures forall c :: c in reg.annotations ==> c in r.annotations
    ensures r.implements == reg.implements && r.providers == reg.providers
  {
    reg.(annotations := reg.annotations[cls := Table(reg, cls)[fn := a]])
  }

  /** `cls.unannotate(fn)`: `pop` the entry, a KeyError when the class has no
      table or the table has no entry for `fn`. */
  function Unannotate(reg: ClassRegistry, cls: ClassId, fn: Callable): (r: Result<ClassRegistry>)
    ensures r.Ok? <==> cls in reg.annotations && fn in reg.annotations[cls]
    ensures r.Err? ==> r.error == MissingKey
    ensures r.Ok? ==> Entry(r.value, cls, fn) == None
    ensures r.Ok? ==> forall c, f :: (c != cls || f != fn) ==> Entry(r.value, c, f) == Entry(reg, c, f)
    ensures r.Ok? ==> r.value.annotations.Keys == reg.annotations.Keys && r.value.implements == reg.implements
    ensures r.Ok? ==> r.value.providers == reg.providers
  {
    if cls in reg.annotations && fn in reg.annotations[cls] then
      Ok(reg.(annotations := reg.annotations[cls := reg.annotations[cls] - {fn}]))
    else
      Err(MissingKey)
  }

  /** `cls.implement(*provider_classes)`: append to `cls`'s list, in order. */
  function Implement(reg: ClassRegistry, cls: ClassId, classes: seq<ClassId>): (r: ClassRegistry)
    ensures Implements(r, cls) == Implements(reg, cls) + classes
    ensures forall c :: c != cls ==> Implements(r, c) == Implements(reg, c)
    ensures r.annotations == reg.annotations && r.providers == reg.providers
  {
    reg.(implements := reg.implements[cls := Implements(reg, cls) + classes])
  }

  /** What one class of the walk yields for `fn`: its own entry for `fn`,
      else, for a bound method, the entry for its `__func__`. */
  function ClassHit(reg: ClassRegistry, cls: ClassId, fn: Callable): (r: Option<Annotation>)
    ensures r.Some? ==> r == Entry(reg, cls, fn) || (fn.BoundMethod? && r == Entry(reg, cls, Function(fn.func)))
    ensures Entry(reg, cls, fn).Some? ==> r == Entry(reg, cls, fn)
    ensures r.None? <==> Entry(reg, cls, fn).None? && (fn.BoundMethod? ==> Entry(reg, cls, Function(fn.func)).None?)
  {
    if Entry(reg, cls, fn).Some? then Entry(reg, cls, fn)
    else if fn.BoundMethod? then Entry(reg, cls, Function(fn.func))
    else None
  }

  /** The walk over the method resolution order: the first class, most
      specific first, that yields an entry. */
  function MroLookup(reg: ClassRegistry, classes: seq<ClassId>, fn: Callable): (r: Option<Annotation>)
    ensures r.None? <==> forall i :: 0 <= i < |classes| ==> ClassHit(reg, classes[i], fn).None?
    ensures r.Some? ==> exists i :: 0 <= i < |classes| && ClassHit(reg, classes[i], fn) == r &&
                          forall j :: 0 <= j < i ==> ClassHit(reg, classes[j], fn).None?
  {
    if |classes| == 0 then None
    else
      match ClassHit(reg, classes[0], fn)
      case Some(a) => Some(a)
      case None =>
        var r := MroLookup(reg, classes[1..], fn);
        assert forall i :: 1 <= i < |classes| ==> classes[i] == classes[1..][i - 1];
        r
  }

  /** `cls.lookup(fn)`. The walk over the MRO comes first; when it finds
      nothing, each implemented class is asked in registration order and a
      LookupError from it is skipped. An implemented class that is not a
      provider has no `lookup`: the AttributeError is not a LookupError and
      propagates. `depth` is how many nested `lookup`
      calls the interpreter still allows: cyclic `implement` lists end in a
      RecursionError, which is not a LookupError and so propagates. */
  function Lookup(reg: ClassRegistry, mro: Mro, cls: ClassId, fn: Callable, depth: nat): (r: Result<Annotation>)
    ensures r.Err? ==> r.error == NotAnnotated(fn) || r.error == TooDeep || r.error == MissingAttribute("lookup")
    ensures r.Ok? ==> exists c :: ClassHit(reg, c, fn) == Some(r.value)
    decreases depth, 1
  {
    match MroLookup(reg, mro(cls), fn)
    case Some(a) => Ok(a)
    case None => Fallback(reg, mro, Implements(reg, cls), fn, depth)
  }

  /** The loop over the classes `cls` implements, in registration order. */
  function Fallback(reg: ClassRegistry, mro: Mro, others: seq<ClassId>, fn: Callable, depth: nat): (r: Result<Annotation>)
    ensures r.Err? ==> r.error == NotAnnotated(fn) || r.error == TooDeep || r.error == MissingAttribute("lookup")
    ensures r.Ok? ==> exists c :: ClassHit(reg, c, fn) == Some(r.value)
    decreases depth, 0, |others|
  {
    if |others| == 0 then Err(NotAnnotated(fn))
    else if others[0] !in reg.providers then Err(MissingAttribute("lookup"))
    else if depth == 0 then Err(TooDeep)
    else
      match Lookup(reg, mro, others[0], fn, depth - 1)
      case Ok(a) => Ok(a)
      case Err(e) =>
        if IsLookupError(e) then Fallback(reg, mro, others[1..], fn, depth) else Err(e)
  }

  /** Round trip: after `cls.annotate(...)(fn)`, `cls.lookup(fn)` returns
      exactly the annotation, whatever the base classes registered. */
  lemma AnnotateThenLookup(reg: ClassRegistry, mro: Mro, cls: ClassId, fn: Callable, a: Annotation, depth: nat)
    requires |mro(cls)| > 0 && mro(cls)[0] == cls
    ensures Lookup(Annotate(reg, cls, fn, a), mro, cls, fn, depth) == Ok(a)
  {
  }

  /** Annotating the same callable twice on one class keeps the last one. */
  lemma ReannotateOverwrites(reg: ClassRegistry, cls: ClassId, fn: Callable, a: Annotation, b: Annotation)
    ensures Annotate(Annotate(reg, cls, fn, a), cls, fn, b) == Annotate(reg, cls, fn, b)
  {
    var t := Table(reg, cls);
    assert Table(Annotate(reg, cls, fn, a), cls) == t[fn := a];
    assert t[fn := a][fn := b] == t[fn := b];
  }

  /** `unannotate` is the inverse of `annotate` for a callable the class had
      not annotated before (once the class owns a table). */
  lemma UnannotateUndoesAnnotate(reg: ClassRegistry, cls: ClassId, fn: Callable, a: Annotation)
    requires cls in reg.annotations && fn !in reg.annotations[cls]
    ensures Unannotate(Annotate(reg, cls, fn, a), cls, fn) == Ok(reg)
  {
    var m := reg.annotations[cls];
    var r := Annotate(reg, cls, fn, a);
    assert r.annotations[cls] == m[fn := a];
    assert m[fn := a] - {fn} == m;
    assert r.annotations[cls := m] == reg.annotations;
  }

  /** The bound-method fallback: a bound method whose own key is not
      registered is found through the entry of its `__func__`. */
  lemma BoundMethodUsesFunc(reg: ClassRegistry, mro: Mro, cls: ClassId, f: nat, receiver: Pid, a: Annotation, depth: nat)
    requires |mro(cls)| > 0 && mro(cls)[0] == cls
    requires Entry(reg, cls, BoundMethod(f, receiver)).None?
    ensures Lookup(Annotate(reg, cls, Function(f), a), mro, cls, BoundMethod(f, receiver), depth) == Ok(a)
  {
  }

  /** Class `d` can influence `cls.lookup`: it is in `cls`'s MRO, or in the
      MRO of a class reached through `implement` lists within `depth`. */
  predicate Visible(reg: ClassRegistry, mro: Mro, cls: ClassId, d: ClassId, depth: nat)
    decreases depth, 1
  {
    d in mro(cls) || VisibleVia(reg, mro, Implements(reg, cls), d, depth)
  }

  predicate VisibleVia(reg: ClassRegistry, mro: Mro, others: seq<ClassId>, d: ClassId, depth: nat)
    decreases depth, 0, |others|
  {
    |others| > 0 && depth > 0 &&
    (Visible(reg, mro, others[0], d, depth - 1) || VisibleVia(reg, mro, others[1..], d, depth))
  }

  /** Annotations stored on a class outside `classes` do not change the walk. */
  lemma MroLookupFrame(reg: ClassRegistry, classes: seq<ClassId>, d: ClassId, g: Callable, a: Annotation, fn: Callable)
    requires d !in classes
    ensures MroLookup(Annotate(reg, d, g, a), classes, fn) == MroLookup(reg, classes, fn)
  {
  }

  /** A class never sees annotations registered on a class it cannot reach:
      in particular a base class never sees its subclasses' annotations. */
  lemma {:induction false} LookupFrame(reg: ClassRegistry, mro: Mro, cls: ClassId, d: ClassId, g: Callable, a: Annotation, fn: Callable, depth: nat)
    requires !Visible(reg, mro, cls, d, depth)
    ensures Lookup(Annotate(reg, d, g, a), mro, cls, fn, depth) == Lookup(reg, mro, cls, fn, depth)
    decreases depth, 1
  {
    MroLookupFrame(reg, mro(cls), d, g, a, fn);
    FallbackFrame(reg, mro, Implements(reg, cls), d, g, a, fn, depth);
  }

  lemma {:induction false} FallbackFrame(reg: ClassRegistry, mro: Mro, others: seq<ClassId>, d: ClassId, g: Callable, a: Annotation, fn: Callable, depth: nat)
    requires !VisibleVia(reg, mro, others, d, depth)
    ensures Fallback(Annotate(reg, d, g, a), mro, others, fn, depth) == Fallback(reg, mro, others, fn, depth)
    decreases depth, 0, |others|
  {
    if |others| > 0 && depth > 0 {
      LookupFrame(reg, mro, others[0], d, g, a, fn, depth - 1);
      FallbackFrame(reg, mro, others[1..], d, g, a, fn, depth);
    }
  }

  /** MRO shadowing: an annotation on a subclass wins for the subclass, while
      the base class keeps its own annotation. */
  lemma SubclassShadows(reg: ClassRegistry, mro: Mro, base: ClassId, sub: ClassId, fn: Callable, a: Annotation, b: Annotation, depth: nat)
    requires |mro(sub)| > 0 && mro(sub)[0] == sub
    requires |mro(base)| > 0 && mro(base)[0] == base
    requires sub != base
    ensures Lookup(Annotate(Annotate(reg, base, fn, a), sub, fn, b), mro, sub, fn, depth) == Ok(b)
    ensures Lookup(Annotate(Annotate(reg, base, fn, a), sub, fn, b), mro, base, fn, depth) == Ok(a)
  {
    var r2 := Annotate(Annotate(reg, base, fn, a), sub, fn, b);
    assert ClassHit(r2, mro(sub)[0], fn) == Some(b);
    assert ClassHit(r2, mro(base)[0], fn) == Some(a);
  }

  /** What `other_class.lookup(fn)` gives for an implemented class: its own
      lookup when it is a provider, else AttributeError for `lookup`. */
  function Answer(reg: ClassRegistry, mro: Mro, c: ClassId, fn: Callable, depth: nat): Result<Annotation>
  {
    if c in reg.providers then Lookup(reg, mro, c, fn, depth) else Err(MissingAttribute("lookup"))
  }

  /** The implements fallback in full: when the MRO walk finds nothing, the
      result is the answer of the first implemented class (in registration
      order) that does not raise a LookupError; when they all raise one, so
      does the fallback. */
  lemma {:induction false} FallbackFirstSuccess(reg: ClassRegistry, mro: Mro, others: seq<ClassId>, fn: Callable, depth: nat)
    requires depth > 0
    ensures (forall i :: 0 <= i < |others| ==> Answer(reg, mro, others[i], fn, depth - 1) == Err(NotAnnotated(fn)))
              ==> Fallback(reg, mro, others, fn, depth) == Err(NotAnnotated(fn))
    ensures forall i :: 0 <= i < |others| && Answer(reg, mro, others[i], fn, depth - 1) != Err(NotAnnotated(fn)) &&
                        (forall j :: 0 <= j < i ==> Answer(reg, mro, others[j], fn, depth - 1) == Err(NotAnnotated(fn)))
              ==> Fallback(reg, mro, others, fn, depth) == Answer(reg, mro, others[i], fn, depth - 1)
    decreases |others|
  {
    if |others| > 0 {
      FallbackFirstSuccess(reg, mro, others[1..], fn, depth);
      var first := Answer(reg, mro, others[0], fn, depth - 1);
      assert Fallback(reg, mro, others, fn, depth) ==
        if first.Err? && IsLookupError(first.error) then Fallback(reg, mro, others[1..], fn, depth) else first;
      assert forall i :: 1 <= i < |others| ==> others[i] == others[1..][i - 1];
    }
  }

  /** `implement` feeds `lookup`: a class whose MRO has no entry for `fn`,
      and which implements exactly one class, answers exactly as that class
      does. */
  lemma ImplementThenLookup(reg: ClassRegistry, mro: Mro, cls: ClassId, c: ClassId, fn: Callable, depth: nat)
    requires MroLookup(reg, mro(cls), fn).None? && Implements(reg, cls) == [] && depth > 0
    ensures Lookup(Implement(reg, cls, [c]), mro, cls, fn, depth) == Answer(Implement(reg, cls, [c]), mro, c, fn, depth - 1)
  {
    var r := Implement(reg, cls, [c]);
    assert Implements(r, cls) == [c];
    assert MroLookup(r, mro(cls), fn).None?;
    FallbackFirstSuccess(r, mro, [c], fn, depth);
  }
}

=== FILE: resolution.dfy ===
/**
 Note resolution and application of `BaseProvider`: `resolve_note`,
 `resolve_notes`, `apply` and `partial`.

 A note is resolved by fetching the accessor `get_<basename>` from the
 provider (through the extension fallback) and calling it, with
 `name=<qualifier>` only when the note has a qualifier. What an accessor
 returns is user code: the context supplies it as the function `call`. An
 accessor may return a value, return the `UNSET` sentinel, or raise.
 */
module Resolution {
  import opened Types
  import opened Notes
  import opened Registry
  import opened Extension

  /** What calling an accessor does: return a value, return `UNSET`, or raise. */
  datatype Outcome = Returned(v: nat) | ReturnedUnset | Failed(code: nat)

  /** A resolved note: a value, or the `UNSET` sentinel. */
  datatype Resolved = Value(v: nat) | UnsetValue

  /** The provider instance `self` in its heap, the behaviour of the accessors
      (called with the optional `name` keyword), and the recursion budget. */
  datatype Context = Context(heap: Heap, self: Pid, call: (Attr, Option<string>) -> Outcome, depth: nat)

  predicate Valid(ctx: Context)
  {
    Closed(ctx.heap) && ctx.self in ctx.heap
  }

  /** Fetch the accessor called `accessor` and call it with `name`, or with no
      argument when `name` is `None`. */
  function CallAccessor(ctx: Context, accessor: string, name: Option<string>): (r: Result<Resolved>)
    requires Valid(ctx)
    ensures r.Err? ==> r.error == MissingAttribute(accessor) || r.error == TooDeep || r.error.Raised?
  {
    match GetAttr(ctx.heap, ctx.self, accessor, ctx.depth)
    case Err(e) => Err(e)
    case Ok(attr) =>
      match ctx.call(attr, name)
      case Returned(v) => Ok(Value(v))
      case ReturnedUnset => Ok(UnsetValue)
      case Failed(c) => Err(Raised(c))
  }

  /** `resolve_note`. `UNSET` is returned here, never raised. */
  function ResolveNote(ctx: Context, note: string): (r: Result<Resolved>)
    requires Valid(ctx)
    ensures r.Err? ==> r.error == MissingAttribute(AccessorName(ParseNote(note).base)) || r.error == TooDeep || r.error.Raised?
  {
    var p := ParseNote(note);
    CallAccessor(ctx, AccessorName(p.base), p.name)
  }

  /** The call shape: `'b'` calls `get_b()` and `'b:q'` calls `get_b(name='q')`. */
  lemma AccessorCallShape(ctx: Context, b: string, q: string)
    requires Valid(ctx) && ValidBase(b) && ValidName(q)
    ensures ResolveNote(ctx, b) == CallAccessor(ctx, "get_" + b, None)
    ensures ResolveNote(ctx, b + ":" + q) == CallAccessor(ctx, "get_" + b, Some(q))
  {
    ParseFormat(ParsedNote(Some(b), None));
    ParseFormat(ParsedNote(Some(b), Some(q)));
  }

  /** `self.resolve_note` as a function of the note alone. `resolve_notes`
      reaches notes only through this hook, so the loops below are stated for
      any resolver. */
  function Resolver(ctx: Context): string -> Result<Resolved>
    requires Valid(ctx)
  {
    (note: string) => ResolveNote(ctx, note)
  }

  /** The positional notes resolved one by one, in order, stopping at the
      first note whose resolution raises. */
  function ResolveAll(resolve: string -> Result<Resolved>, notes: seq<string>): (r: Result<seq<Resolved>>)
    ensures r.Ok? ==> |r.value| == |notes| && forall i :: 0 <= i < |notes| ==> resolve(notes[i]) == Ok(r.value[i])
    ensures r.Err? ==> exists i :: 0 <= i < |notes| && resolve(notes[i]) == Err(r.error) &&
                          forall j :: 0 <= j < i ==> resolve(notes[j]).Ok?
  {
    if |notes| == 0 then Ok([])
    else
      match resolve(notes[0])
      case Err(e) => Err(e)
      case Ok(v) =>
        assert forall i :: 1 <= i < |notes| ==> notes[i] == notes[1..][i - 1];
        match ResolveAll(resolve, notes[1..])
        case Err(e) => Err(e)
        case Ok(rest) => Ok([v] + rest)
  }

  /** No later keyword note uses the same key as the one at `i`. */
  predicate LastForKey(kws: seq<(string, string)>, i: nat)
    requires i < |kws|
  {
    forall j :: i < j < |kws| ==> kws[j].0 != kws[i].0
  }

  /** The keys of the keyword notes. */
  function KeySet(kws: seq<(string, string)>): (r: set<string>)
    ensures forall i :: 0 <= i < |kws| ==> kws[i].0 in r
  {
    if |kws| == 0 then {}
    else
      var n := |kws| - 1;
      assert forall i :: 0 <= i < n ==> kws[..n][i] == kws[i];
      KeySet(kws[..n]) + {kws[n].0}
  }

  /** The keyword notes resolved one by one, in dictionary order, stopping at
      the first note whose resolution raises; a later entry for a key replaces
      an earlier one. */
  function ResolveKeywords(resolve: string -> Result<Resolved>, kws: seq<(string, string)>): (r: Result<map<string, Resolved>>)
    ensures r.Ok? ==> r.value.Keys == KeySet(kws)
    ensures r.Ok? ==> forall i :: 0 <= i < |kws| ==> resolve(kws[i].1).Ok?
    ensures r.Ok? ==> forall i :: 0 <= i < |kws| && LastForKey(kws, i) ==> resolve(kws[i].1) == Ok(r.value[kws[i].0])
    ensures r.Err? ==> exists i :: 0 <= i < |kws| && resolve(kws[i].1) == Err(r.error) &&
                          forall j :: 0 <= j < i ==> resolve(kws[j].1).Ok?
  {
    if |kws| == 0 then Ok(map[])
    else
      var n := |kws| - 1;
      var init := kws[..n];
      assert forall i :: 0 <= i < n ==> init[i] == kws[i];
      match ResolveKeywords(resolve, init)
      case Err(e) => Err(e)
      case Ok(m) =>
        match resolve(kws[n].1)
        case Err(e) => Err(e)
        case Ok(v) =>
          assert kws == init + [kws[n]];
          KeywordStep(resolve, init, kws[n], m, v);
          Ok(m[kws[n].0 := v])
  }

  /** One step of the dictionary comprehension: storing the last entry keeps
      every earlier entry that no later entry replaces. */
  lemma KeywordStep(resolve: string -> Result<Resolved>, init: seq<(string, string)>, last: (string, string), m: map<string, Resolved>, v: Resolved)
    requires m.Keys == KeySet(init)
    requires forall i :: 0 <= i < |init| && LastForKey(init, i) ==> resolve(init[i].1) == Ok(m[init[i].0])
    requires resolve(last.1) == Ok(v)
    ensures forall i :: 0 <= i < |init + [last]| && LastForKey(init + [last], i) ==>
              resolve((init + [last])[i].1) == Ok(m[last.0 := v][(init + [last])[i].0])
  {
    var kws := init + [last];
    forall i | 0 <= i < |kws| && LastForKey(kws, i)
      ensures resolve(kws[i].1) == Ok(m[last.0 := v][kws[i].0])
    {
      if i < |init| {
        assert kws[i] == init[i];
        assert kws[|init|] == last;
        assert LastForKey(init, i) by {
          forall j | i < j < |init| ensures init[j].0 != init[i].0 {
            assert kws[j] == init[j];
          }
        }
      }
    }
  }

  /** Index of the first `UNSET` among positional results, `|args|` if none. */
  function FirstUnset(args: seq<Resolved>): (i: nat)
    ensures i <= |args|
    ensures i < |args| ==> args[i] == UnsetValue
    ensures forall j :: 0 <= j < i ==> args[j].Value?
  {
    if |args| == 0 || args[0] == UnsetValue then 0 else 1 + FirstUnset(args[1..])
  }

  /** The arguments handed to the callable: positional values and keywords. */
  datatype Arguments = Arguments(args: seq<nat>, kwargs: map<string, nat>)

  /** The positional values, once none is `UNSET`. */
  function Values(results: seq<Resolved>): (r: seq<nat>)
    requires forall j :: 0 <= j < |results| ==> results[j].Value?
    ensures |r| == |results| && forall j :: 0 <= j < |results| ==> results[j] == Value(r[j])
  {
    seq(|results|, j requires 0 <= j < |results| => results[j].v)
  }

  /** The keyword results with every `UNSET` entry filtered out. */
  function DropUnset(m: map<string, Resolved>): (r: map<string, nat>)
    ensures forall k :: k in r <==> k in m && m[k].Value?
    ensures forall k :: k in r ==> m[k] == Value(r[k])
  {
    map k | k in m && m[k].Value? :: m[k].v
  }

  /** Resolving one of the notes raised `e`. */
  predicate NoteRaised(resolve: string -> Result<Resolved>, notes: seq<string>, kws: seq<(string, string)>, e: Error)
  {
    (exists i :: 0 <= i < |notes| && resolve(notes[i]) == Err(e)) ||
    (exists i :: 0 <= i < |kws| && resolve(kws[i].1) == Err(e))
  }

  /** `resolve_notes`. Every positional note is resolved, then every keyword
      note; only then is `UNSET` checked: the first positional `UNSET` raises
      UnsetError for its note, while keyword entries that are `UNSET` are
      dropped. */
  function ResolveNotes(resolve: string -> Result<Resolved>, notes: seq<string>, kws: seq<(string, string)>): (r: Result<Arguments>)
    ensures r.Ok? ==> |r.value.args| == |notes| &&
                      forall i :: 0 <= i < |notes| ==> resolve(notes[i]) == Ok(Value(r.value.args[i]))
    ensures r.Ok? ==> r.value.kwargs.Keys <= KeySet(kws)
    ensures r.Ok? ==> forall i :: 0 <= i < |kws| && LastForKey(kws, i) ==>
                        resolve(kws[i].1).Ok? &&
                        (kws[i].0 in r.value.kwargs <==> resolve(kws[i].1).value.Value?) &&
                        (kws[i].0 in r.value.kwargs ==> resolve(kws[i].1).value == Value(r.value.kwargs[kws[i].0]))
    ensures r.Err? ==> NoteRaised(resolve, notes, kws, r.error) ||
                       exists i :: 0 <= i < |notes| && r.error == Unset(notes[i]) && resolve(notes[i]) == Ok(UnsetValue)
    ensures ResolveAll(resolve, notes).Err? ==> r == Err(ResolveAll(resolve, notes).error)
    ensures ResolveAll(resolve, notes).Ok? && ResolveKeywords(resolve, kws).Err? ==>
              r == Err(ResolveKeywords(resolve, kws).error)
  {
    match ResolveAll(resolve, notes)
    case Err(e) => Err(e)
    case Ok(results) =>
      match ResolveKeywords(resolve, kws)
      case Err(e) => Err(e)
      case Ok(m) =>
        var i := FirstUnset(results);
        if i < |results| then
          assert resolve(notes[i]) == Ok(UnsetValue);
          Err(Unset(notes[i]))
        else
          Ok(Arguments(Values(results), DropUnset(m)))
  }

  /** Every note resolves without raising. */
  predicate AllResolve(resolve: string -> Result<Resolved>, notes: seq<string>, kws: seq<(string, string)>)
  {
    (forall i :: 0 <= i < |notes| ==> resolve(notes[i]).Ok?) &&
    (forall i :: 0 <= i < |kws| ==> resolve(kws[i].1).Ok?)
  }

  /** `UNSET` is fatal for positional notes: when every note resolves, the
      first positional `UNSET` raises UnsetError naming that note. */
  lemma UnsetPositionalIsFatal(resolve: string -> Result<Resolved>, notes: seq<string>, kws: seq<(string, string)>, i: nat)
    requires AllResolve(resolve, notes, kws)
    requires i < |notes| && resolve(notes[i]) == Ok(UnsetValue)
    requires forall j :: 0 <= j < i ==> resolve(notes[j]).value.Value?
    ensures ResolveNotes(resolve, notes, kws) == Err(Unset(notes[i]))
  {
  }

  /** `UNSET` is harmless for keyword notes: when every note resolves and no
      positional note is `UNSET`, resolution succeeds. */
  lemma UnsetKeywordIsDropped(resolve: string -> Result<Resolved>, notes: seq<string>, kws: seq<(string, string)>)
    requires AllResolve(resolve, notes, kws)
    requires forall j :: 0 <= j < |notes| ==> resolve(notes[j]).value.Value?
    ensures ResolveNotes(resolve, notes, kws).Ok?
  {
  }

  /** A call of the annotated callable: `fn(*args, **kwargs)`. */
  datatype Invocation = Invocation(fn: Callable, args: seq<nat>, kwargs: map<string, nat>)

  /** `self.lookup(fn)`: the lookup of the provider's own class. */
  function LookupFor(reg: ClassRegistry, mro: Mro, ctx: Context, fn: Callable): Result<Annotation>
    requires Valid(ctx)
  {
    Lookup(reg, mro, ctx.heap[ctx.self].cls, fn, ctx.depth)
  }

  /** Some keyword note uses the key `k`. */
  predicate UsesKey(kws: seq<(string, string)>, k: string)
  {
    exists i :: 0 <= i < |kws| && kws[i].0 == k
  }

  /** `args` and `kwargs` are what the notes of `a` resolve to: one value per
      positional note, in order; and for each keyword (its last note counts)
      the keyword is passed exactly when its note resolved to a value rather
      than `UNSET`, and then with that value. */
  predicate Binds(resolve: string -> Result<Resolved>, a: Annotation, args: seq<nat>, kwargs: map<string, nat>)
  {
    |args| == |a.notes| &&
    (forall i :: 0 <= i < |a.notes| ==> resolve(a.notes[i]) == Ok(Value(args[i]))) &&
    kwargs.Keys <= KeySet(a.keywords) &&
    forall i :: 0 <= i < |a.keywords| && LastForKey(a.keywords, i) ==>
      resolve(a.keywords[i].1).Ok? &&
      (a.keywords[i].0 in kwargs <==> resolve(a.keywords[i].1).value.Value?) &&
      (a.keywords[i].0 in kwargs ==> resolve(a.keywords[i].1).value == Value(kwargs[a.keywords[i].0]))
  }

  /** The two steps `apply` and `partial` share: look the annotation up, then
      pass its notes to `resolve_notes`. A LookupError comes before any
      accessor is called. `resolve_notes` takes the provider as its parameter
      `self`, so a keyword note named `self` is a TypeError before any note
      is resolved. */
  function Prepare(reg: ClassRegistry, mro: Mro, ctx: Context, fn: Callable): (r: Result<Arguments>)
    requires Valid(ctx)
    ensures LookupFor(reg, mro, ctx, fn).Err? ==> r == Err(LookupFor(reg, mro, ctx, fn).error)
    ensures LookupFor(reg, mro, ctx, fn).Ok? && UsesKey(LookupFor(reg, mro, ctx, fn).value.keywords, "self") ==>
              r == Err(DuplicateArgument("self"))
    ensures LookupFor(reg, mro, ctx, fn).Ok? && !UsesKey(LookupFor(reg, mro, ctx, fn).value.keywords, "self") ==>
              var a := LookupFor(reg, mro, ctx, fn).value;
              r == ResolveNotes(Resolver(ctx), a.notes, a.keywords)
    ensures r.Ok? ==> LookupFor(reg, mro, ctx, fn).Ok? &&
                      Binds(Resolver(ctx), LookupFor(reg, mro, ctx, fn).value, r.value.args, r.value.kwargs)
  {
    match LookupFor(reg, mro, ctx, fn)
    case Err(e) => Err(e)
    case Ok(a) =>
      if UsesKey(a.keywords, "self") then Err(DuplicateArgument("self"))
      else ResolveNotes(Resolver(ctx), a.notes, a.keywords)
  }

  /** `apply`: call `fn` with the resolved arguments; the invocation returned
      is the call made (its result is user code). */
  function Apply(reg: ClassRegistry, mro: Mro, ctx: Context, fn: Callable): (r: Result<Invocation>)
    requires Valid(ctx)
    ensures r.Ok? <==> Prepare(reg, mro, ctx, fn).Ok?
    ensures r.Ok? ==> r.value.fn == fn && LookupFor(reg, mro, ctx, fn).Ok? &&
                      Binds(Resolver(ctx), LookupFor(reg, mro, ctx, fn).value, r.value.args, r.value.kwargs)
    ensures LookupFor(reg, mro, ctx, fn).Err? ==> r == Err(LookupFor(reg, mro, ctx, fn).error)
    ensures LookupFor(reg, mro, ctx, fn).Ok? && UsesKey(LookupFor(reg, mro, ctx, fn).value.keywords, "self") ==>
              r == Err(DuplicateArgument("self"))
    ensures LookupFor(reg, mro, ctx, fn).Ok? && !UsesKey(LookupFor(reg, mro, ctx, fn).value.keywords, "self") && r.Err? ==>
              var a := LookupFor(reg, mro, ctx, fn).value;
              r.error == ResolveNotes(Resolver(ctx), a.notes, a.keywords).error
  {
    match Prepare(reg, mro, ctx, fn)
    case Err(e) => Err(e)
    case Ok(args) => Ok(Invocation(fn, args.args, args.kwargs))
  }

  /** A `functools.partial` object: `fn` with arguments bound. */
  datatype PartialCall = PartialCall(fn: Callable, args: seq<nat>, kwargs: map<string, nat>)

  /** `partial`: resolve now and bind the result. The notes are resolved when
      the partial object is made, not when it is called. */
  function Partial(reg: ClassRegistry, mro: Mro, ctx: Context, fn: Callable): (r: Result<PartialCall>)
    requires Valid(ctx)
    ensures r.Ok? <==> Prepare(reg, mro, ctx, fn).Ok?
    ensures r.Ok? ==> r.value.fn == fn && LookupFor(reg, mro, ctx, fn).Ok? &&
                      Binds(Resolver(ctx), LookupFor(reg, mro, ctx, fn).value, r.value.args, r.value.kwargs)
    ensures LookupFor(reg, mro, ctx, fn).Err? ==> r == Err(LookupFor(reg, mro, ctx, fn).error)
    ensures LookupFor(reg, mro, ctx, fn).Ok? && UsesKey(LookupFor(reg, mro, ctx, fn).value.keywords, "self") ==>
              r == Err(DuplicateArgument("self"))
    ensures LookupFor(reg, mro, ctx, fn).Ok? && !UsesKey(LookupFor(reg, mro, ctx, fn).value.keywords, "self") && r.Err? ==>
              var a := LookupFor(reg, mro, ctx, fn).value;
              r.error == ResolveNotes(Resolver(ctx), a.notes, a.keywords).error
  {
    match Prepare(reg, mro, ctx, fn)
    case Err(e) => Err(e)
    case Ok(args) => Ok(PartialCall(fn, args.args, args.kwargs))
  }

  /** Calling a partial object with more arguments: bound positional
      arguments first, then the new ones; call keywords override bound ones. */
  function CallPartial(p: PartialCall, extra: seq<nat>, extraKw: map<string, nat>): (r: Invocation)
    ensures r.fn == p.fn
    ensures |r.args| == |p.args| + |extra|
    ensures r.args[..|p.args|] == p.args && r.args[|p.args|..] == extra
    ensures r.kwargs.Keys == p.kwargs.Keys + extraKw.Keys
    ensures forall k :: k in extraKw ==> r.kwargs[k] == extraKw[k]
    ensures forall k :: k in p.kwargs && k !in extraKw ==> r.kwargs[k] == p.kwargs[k]
  {
    Invocation(p.fn, p.args + extra, p.kwargs + extraKw)
  }

  /** `partial` and `apply` agree: calling the partial object with no more
      arguments is the call `apply` makes, and they fail alike. */
  lemma PartialThenCallIsApply(reg: ClassRegistry, mro: Mro, ctx: Context, fn: Callable)
    requires Valid(ctx)
    ensures Partial(reg, mro, ctx, fn).Ok? <==> Apply(reg, mro, ctx, fn).Ok?
    ensures Partial(reg, mro, ctx, fn).Ok? ==> Apply(reg, mro, ctx, fn).value == CallPartial(Partial(reg, mro, ctx, fn).value, [], map[])
    ensures Partial(reg, mro, ctx, fn).Err? ==> Apply(reg, mro, ctx, fn).error == Partial(reg, mro, ctx, fn).error
  {
    if Partial(reg, mro, ctx, fn).Ok? {
      CallPartialNothing(Partial(reg, mro, ctx, fn).value);
    }
  }

  /** Calling a partial object with nothing more calls its function with the
      bound arguments alone. */
  lemma CallPartialNothing(p: PartialCall)
    ensures CallPartial(p, [], map[]) == Invocation(p.fn, p.args, p.kwargs)
  {
    assert p.args + [] == p.args;
    assert p.kwargs + map[] == p.kwargs;
  }
}

=== FILE: types.dfy ===
/**
 Shared vocabulary of the jeni provider model: optional values, results
 carrying the Python exception that would have been raised, and the
 identifiers that stand for Python objects (classes, callables, provider
 instances).
 */
module Types {

  /** A value that may be absent; Python's `None` where the source uses it. */
  datatype Option<+T> = None | Some(value: T)

  /** Identity of a Python class. */
  type ClassId = nat

  /** Identity of a provider instance (or any object placed in an extension list). */
  type Pid = nat

  /** A callable used as a registry key: a plain function, or a bound method
      whose `__func__` is the function with the given id. */
  datatype Callable = Function(id: nat) | BoundMethod(func: nat, receiver: Pid)

  /** The exceptions the core raises or lets through, reduced to which error it
      is and what it concerns (message text is not modelled). */
  datatype Error =
    | NotAnnotated(fn: Callable)          // LookupError(repr(fn)) raised by `lookup`
    | MissingKey                          // KeyError from the registry dictionaries
    | Unset(note: string)                 // UnsetError for a positional note
    | MissingAttribute(name: string)      // AttributeError
    | NotInExtends(provider: Pid)         // ValueError from `list.remove`
    | Raised(code: nat)                   // whatever user code (an accessor, a close method) raised
    | TooDeep                             // RecursionError: the interpreter's recursion limit
    | DuplicateArgument(name: string)     // TypeError: a keyword argument that repeats a named parameter

  /** Success with a value, or the error that propagates to the caller. */
  datatype Result<+T> = Ok(value: T) | Err(error: Error)

  /** `isinstance(e, LookupError)`: `UnsetError` derives from `KeyError`,
      which derives from `LookupError`. */
  predicate IsLookupError(e: Error)
  {
    e.NotAnnotated? || e.MissingKey? || e.Unset?
  }

  /** No element occurs twice. */
  predicate NoDup<T(==)>(s: seq<T>)
  {
    forall i, j :: 0 <= i < j < |s| ==> s[i] != s[j]
  }
}
